=== FILE: README.md ===
# Classroom points ledger — a Dafny model

This project models the core of a classroom gamification app in which a
teacher keeps students in classes, awards and deducts points, and lets
students redeem points for rewards. Students grow through four levels:
Hạt (seed), Nảy mầm (sprout), Cây con (sapling) and Cây to (tree).

Everything is modelled as immutable datatypes and pure functions over sequences:

- the student record and its point history;
- the level table and classifier;
- the point-update and redemption handlers;
- the class registry, with its default-class safety net;
- the sorted and searched class view;
- the leaderboard;
- the class statistics;
- the reward catalogue editor;
- the student detail view;
- the avatar and spreadsheet-row helpers.

Modules, one per file:

| module | file | covers |
|---|---|---|
| `Types` | types.dfy | records, level table, default rewards and default class |
| `LevelRules` | levels.dfy | `calculateLevel`, `getNextLevelInfo` |
| `Seqs` | seqs.dfy | `filter`, summing `reduce`, `reverse`, `slice`, and stable `sort` as an insertion sort over a "may stand before" relation |
| `Ledger` | ledger.dfy | `handleUpdatePoints`, `handleRedeemReward` |
| `Text` | text.dfy | `trim`, `includes`, `split(' ').pop()`, decimal `parseInt` |
| `Registry` | registry.dfy | students, classes, sorting and search in App.tsx |
| `Leaderboard` | leaderboard.dfy | top-ten ranking and its export rows |
| `Statistics` | statistics.dfy | the statistics view and `getMedian` |
| `RewardSettings` | rewards.dfy | the reward catalogue editor |
| `StudentDetail` | student_detail.dfy | the student detail view |
| `Utils` | utils.dfy | `getAvatarUrl`, gained/lost totals, `toExcel` rows |

Some inputs the app draws from its environment are parameters here:

- fresh ids (`uuidv4()`) and timestamps are opaque strings the caller supplies;
- confirmation dialogs are taken as already answered "yes";
- the level-up celebration is a returned boolean;
- `localeCompare` is a name relation `nameLe`, required to be a total preorder when sorting by name;
- `toLowerCase` is a function `fold`;
- `toUpperCase` is a function `upper`.

`Math.round` is modelled exactly on rationals, as the integer r with
2nr − n ≤ 2a < 2nr + n; halves round up, as in JavaScript.

## Model

| member | source | states |
|---|---|---|
| Types.LevelAt | types.ts:1 | each of the four positions 0..3 names a tier whose rank is that position |
| Types.RankIsBijection | types.ts:1 | the level type has exactly four values and each sits at exactly one position of the growth order |
| Types.LevelMinStrictlyIncreasing | types.ts:51-56 | a tier is higher exactly when its minimum is larger (0 < 20 < 50 < 100) |
| Types.LevelsContiguous | types.ts:51-56 | each bounded tier's maximum is one below the next tier's minimum, and only the top tier is unbounded |
| Types.DefaultRewardsWellFormed | types.ts:58-65 | six default rewards with distinct ids and strictly increasing positive costs from 30 to 200 |
| LevelRules.CalculateLevel | utils.ts:15-20 | tree iff p ≥ 100, sapling iff 50 ≤ p < 100, sprout iff 20 ≤ p < 50, seed otherwise (negatives included); boundaries go to the higher tier |
| LevelRules.CalculateLevelMonotone | utils.ts:15-20 | a larger total never classifies to a lower tier |
| LevelRules.CalculateLevelWithinTier | utils.ts:15-20 | a non-negative total lies between its tier's minimum and maximum |
| LevelRules.CalculateLevelOfMin | utils.ts:15-20 | each tier's minimum classifies to that tier |
| LevelRules.NextLevel | utils.ts:33-35 | the next tier of a non-top tier is the one of rank one higher |
| LevelRules.GetNextLevelInfo | utils.ts:22-42 | percent in [0, 100]; at the top tier exactly: 100, 0 remaining, "Max Level"; below it remaining = next tier's minimum − points > 0 with the next tier's name |
| LevelRules.NextLevelPercentIsProgress | utils.ts:37-39 | below the top tier the percent is the covered share of the current tier, unclamped |
| LevelRules.Clamp | utils.ts:38 | `Math.min(hi, Math.max(lo, x))`: within [lo, hi], x itself inside, the nearer bound outside |
| Seqs.Filter | App.tsx:103 | the kept elements with their multiplicities, only accepted ones, and all of them when all are accepted |
| Seqs.FilterAppend | App.tsx:103 | filtering a concatenation filters each part and concatenates, so kept elements keep their list order |
| Seqs.FilterSingleton | App.tsx:103 | a one-element list keeps its element iff it is accepted |
| Seqs.FilterFirstKept | App.tsx:298 | the first element of the filtered list is the first accepted element of the input |
| Seqs.SumPermutation | components/ClassStatisticsModal.tsx:23 | a summing `reduce` does not depend on element order |
| Seqs.CountPermutation | components/ClassStatisticsModal.tsx:35-37 | a count does not depend on element order |
| Seqs.SortBy | App.tsx:327-339 | the sorted copy has the input's length and is a permutation of it |
| Seqs.SortBySorted | App.tsx:327-339 | under a total preorder the sorted copy is ordered |
| Seqs.SortByStable | App.tsx:327-339 | the sort keeps the relative order of elements the comparator ties |
| Seqs.Take | components/Leaderboard.tsx:18 | `slice(0, n)`: a prefix of the input of length min(n, length) |
| Seqs.Reverse | components/StudentDetailModal.tsx:92 | same length; position i holds the input's element at length − 1 − i |
| Seqs.ReverseInvolution | components/StudentDetailModal.tsx:92 | reversing twice gives the original history back |
| Ledger.ApplyDelta | App.tsx:107-134 | new total is old + amount clamped at 0; level recomputed from it; one history entry appended with the unclamped change, the clamped total and the defaulted reason; redemptions untouched; level-up iff the new tier's minimum exceeds the stored tier's |
| Ledger.ReasonFor | App.tsx:124 | a non-empty reason is kept; otherwise "Thưởng điểm" for a positive amount and "Trừ điểm" for zero or negative |
| Ledger.UpdatePoints | App.tsx:107-134 | every student with the id is updated and every other student is unchanged; the signal fires iff some match levels up |
| Ledger.UpdatePointsUnknownId | App.tsx:109 | an unknown id changes nothing and signals nothing |
| Ledger.ApplyDeltaClamps | App.tsx:111 | the balance is max(0, old + amount) |
| Ledger.LevelUpIffTierRises | App.tsx:114-118 | with a stored level matching the balance, the signal fires iff the tier rank rises, which needs a positive amount |
| Ledger.LevelUpExamples | App.tsx:111-126 | 18 + 5 levels up; 25 + 5 does not; 5 − 100 gives 0 with change −100 and reason "Trừ điểm" |
| Ledger.ApplyDeltaPreservesConsistent | App.tsx:111-131 | a non-negative balance, the newest entry agreeing with it, and net recorded change within it survive an update |
| Ledger.UpdatePointsPreservesConsistent | App.tsx:107-134 | the same for the whole list |
| Ledger.Find | App.tsx:149 | the first student with the id, or nothing exactly when no student has it |
| Ledger.Debit | App.tsx:159-182 | balance drops by the cost; level unchanged; one history entry (−cost, "Đổi quà: " + name, new balance) and one redemption (name, cost) appended |
| Ledger.DebitAll | App.tsx:159-183 | the `map` of the redemption: every student with the id is debited and every other student is unchanged, in place |
| Ledger.RedeemReward | App.tsx:148-184 | refused as not found exactly when no student has the id; a shortfall refusal carries the cost |
| Ledger.RedeemRewardAt | App.tsx:148-184 | with unique ids: accepted iff balance ≥ cost; then exactly that student is debited by the cost and stays non-negative, and everyone else is unchanged |
| Ledger.RedeemExamples | App.tsx:152-182 | 10 points cannot buy a 30-point reward; 100 points buy an 80-point one leaving 20 and one more entry in each list |
| Ledger.DebitPreservesConsistent | App.tsx:152-182 | an affordable debit keeps the record consistent |
| Ledger.RedeemRewardPreservesConsistent | App.tsx:148-184 | an accepted redemption keeps every record consistent, so balances stay non-negative |
| Ledger.DebitLevelCache | App.tsx:177-182 | the stored level still matches after a debit iff the debit stays inside the tier |
| Ledger.RedeemLeavesStaleLevel | App.tsx:177-182 | a tree at 100 points spending 80 keeps the tree level at 20 points |
| Text.Trim | App.tsx:248 | the trimmed string is a slice that cut only whitespace, starts and ends with a non-blank, and is empty iff the input is all whitespace |
| Text.TrimIdempotent | App.tsx:248-251 | trimming twice is trimming once |
| Text.LastWord | utils.ts:196 | the suffix after the last space, containing no space |
| Text.ContainsTrivial | App.tsx:328 | `includes` accepts the empty string and the string itself |
| Text.ParseInt | components/RewardSettingsModal.tsx:163 | NaN (none) exactly when no digit follows the leading blanks and optional sign |
| Text.ParseIntRoundTrip | components/RewardSettingsModal.tsx:163 | any integer printed in decimal parses back to itself; on JavaScript numbers this holds for magnitudes up to 2^53 |
| Text.ParseIntRejects | components/RewardSettingsModal.tsx:163 | "" and "abc" are NaN |
| Text.ParseIntSkipsAround | components/RewardSettingsModal.tsx:163 | " 42x" parses as 42 |
| Registry.ClassMembers | App.tsx:103 | exactly the students of the class, with multiplicities |
| Registry.CurrentClass | App.tsx:102 | the first class with the current id when there is one, else the first class, nothing only with no classes |
| Registry.CurrentClassPicksFirstDuplicate | App.tsx:102 | of two classes sharing the current id, the earlier one is current |
| Registry.MaxOrder | App.tsx:187 | the largest order in the class with missing and zero orders as 0, and 0 for an empty class; attained unless 0 |
| Registry.AddStudent | App.tsx:186-202 | one fresh student (0 points, seed, empty histories) appended to the current class; its order is the given one, else one above the class's largest |
| Registry.ImportOrder | App.tsx:222 | a non-zero order is kept; a missing or zero one becomes maxOrder + index + 1, which is above maxOrder and never 0 when maxOrder ≥ 0 |
| Registry.ImportName | App.tsx:223 | never empty; a non-empty name is kept, and anything other than "Học sinh mới" came from the record |
| Registry.Imported | App.tsx:220-232 | one fresh student per record, in record order, in the class under its id, with the record's dob and class name, its name or "Học sinh mới", its non-zero order or maxOrder + position + 1 |
| Registry.ImportStudents | App.tsx:214-237 | classes and current class unchanged; the existing students stay in front and the imported ones, numbered from the current class's largest order, follow; the sort becomes order ascending; a document with no records (the parser throws, utils.ts:181-185, and the handler only reports it) changes nothing |
| Registry.ImportFallbackOrdersFresh | App.tsx:218-222 | among the imported students, fallback orders climb by one with the record's position and exceed every order already in the class |
| Registry.DeleteStudent | App.tsx:204-212 | removes exactly the records with the id; an unknown id changes nothing |
| Registry.DeleteAllStudentsInClass | App.tsx:306-316 | removes exactly the class's students; a no-op when it has none |
| Registry.DeleteAllStudentsEmptiesClass | App.tsx:306-316 | afterwards the class is empty and every other class keeps exactly its students |
| Registry.AddClass | App.tsx:247-256 | a blank name changes nothing; otherwise a class with the trimmed name is appended and becomes current |
| Registry.RenameClass | App.tsx:258-262 | renames the edited class and nothing else; ids and order are kept |
| Registry.RemoveClass | App.tsx:298 | drops exactly the classes with the id |
| Registry.DeleteClass | App.tsx:288-304 | refused with the student count iff a student is in the class; otherwise only that class goes and a deleted current class hands over to the first remaining one |
| Registry.DeleteClassHandsToFirstRemaining | App.tsx:298-303 | deleting the empty current class makes the first class of the list other than it current |
| Registry.DeleteClassSettled | App.tsx:288-304 | a deletion followed by the safety-net effect (App.tsx:91-97) never leaves a non-empty class list empty and never touches students |
| Registry.DeleteEditingClass | App.tsx:264-286 | behaves exactly like deleting the edited class, and does nothing with none |
| Registry.EnsureDefaultClass | App.tsx:91-97 | an empty class list becomes the default class, made current; otherwise nothing changes |
| Registry.DeleteOnlyClassRestoresDefault | App.tsx:91-97 | deleting the only, empty, current class leaves exactly the default class, current |
| Registry.DeleteNonEmptyClassRefused | App.tsx:289-293 | a class with a student cannot be deleted and nothing changes |
| Registry.DeleteClassKeepsCurrentValid | App.tsx:288-304 | after a settled deletion the current id names an existing class |
| Registry.AddRenameKeepCurrentValid | App.tsx:247-262 | adding and renaming classes keep the current id valid |
| Registry.DeleteClassesNeverEmpty | App.tsx:91-97 | any sequence of deletions leaves at least one class |
| Registry.DeleteClasses | App.tsx:288-304 | any run of settled deletions leaves the students as they were |
| Registry.NextSortConfig | App.tsx:320-325 | the key becomes current; ascending iff re-selecting the current key while descending |
| Registry.NextSortConfigToggles | App.tsx:320-325 | re-selecting a key twice restores the configuration; a new key starts descending |
| Registry.OrderKey | App.tsx:332-333 | `order ?? 9999`: the order when present, else 9999 |
| Registry.Precedes | App.tsx:329-338 | the comparator relates a to b exactly when a may stand before b under the configured key and direction |
| Registry.DescendingSwapsAscending | App.tsx:330-337 | each descending comparator is the ascending one with its sides swapped |
| Registry.PrecedesIsTotalPreorder | App.tsx:329-338 | the points, order (missing = 9999) and name comparators, each in either direction, are total preorders |
| Registry.SortedView | App.tsx:327-339 | exactly the current class's students whose folded name contains the folded query, with multiplicities |
| Registry.MatchesQuery | App.tsx:328 | a student matches iff the folded name includes the folded query; an empty folded query matches everyone |
| Registry.SortedViewOrdered | App.tsx:327-339 | the view is in the configured order |
| Registry.SortedViewStable | App.tsx:327-339 | students the comparator ties keep their list order |
| Registry.EmptyQueryShowsWholeClass | App.tsx:328 | an empty query shows the whole current class |
| Leaderboard.PointsDescIsTotalPreorder | components/Leaderboard.tsx:18 | `b.totalPoints - a.totalPoints ≤ 0` as "may stand before" is a total preorder, so the ranking sort is well defined |
| Leaderboard.TopByPoints | components/Leaderboard.tsx:18 | at most k students drawn from the input, non-increasing in points, and nobody left out has more points than anybody taken |
| Leaderboard.TopByPointsStable | components/Leaderboard.tsx:18 | students with equal points keep their list order |
| Leaderboard.Ranking | components/Leaderboard.tsx:17-19 | at most ten students from the input, non-increasing in points |
| Leaderboard.RankingIgnoresFilter | components/Leaderboard.tsx:11-19 | the time filter does not change the ranking |
| Leaderboard.SmallClassRankedInFull | components/Leaderboard.tsx:18 | ten students or fewer are all ranked |
| Leaderboard.ExportRows | components/Leaderboard.tsx:21-28 | row i has rank i + 1, the student's name, level name, points and redemption count |
| Leaderboard.ExportedLeaderboardOrdered | components/Leaderboard.tsx:17-28 | exported ranks start at 1 and increase while points never increase down the table |
| Statistics.RoundDiv | components/ClassStatisticsModal.tsx:24 | the integer nearest a / n, halves up |
| Statistics.MaxOf | components/ClassStatisticsModal.tsx:25 | bounds every value and is one of them |
| Statistics.MinOf | components/ClassStatisticsModal.tsx:26 | bounded by every value and is one of them |
| Statistics.RangeIndex | components/ClassStatisticsModal.tsx:45-48 | the bucket found contains the total; none found means no bucket contains it |
| Statistics.RangeIndexMatchesLevel | components/ClassStatisticsModal.tsx:40-49 | buckets are disjoint; a total is in one iff it is non-negative, and that bucket is the rank of its tier |
| Statistics.Percentage | components/ClassStatisticsModal.tsx:61-65 | round(count / n · 100) in [0, 100], and 0 for an empty class |
| Statistics.AvgPoints | components/ClassStatisticsModal.tsx:24 | 0 for no students, otherwise the class total over the head count rounded to the nearest integer |
| Statistics.MaxPoints | components/ClassStatisticsModal.tsx:25 | 0 for no students, otherwise a total no student exceeds and some student has |
| Statistics.MinPoints | components/ClassStatisticsModal.tsx:26 | 0 for no students, otherwise a total no student falls below and some student has |
| Statistics.LevelCounts | components/ClassStatisticsModal.tsx:29-37 | entry k is the number of students at the k-th tier of the ladder |
| Statistics.LevelShares | components/ClassStatisticsModal.tsx:61-65 | one share per tier in ladder order with its count; the percentage is round(count / n · 100), in [0, 100], and 0 for an empty class |
| Statistics.RangeBuckets | components/ClassStatisticsModal.tsx:40-49 | bucket k carries the k-th range and the number of totals inside it |
| Statistics.ComputeStats | components/ClassStatisticsModal.tsx:21-80 | the total, rounded average, attained extremes (0 when empty), per-level counts and percentages round(count / n · 100), bucket counts, redemption totals and the top five |
| Statistics.LevelCountsSumToTotal | components/ClassStatisticsModal.tsx:29-37 | the four level counts add up to the number of students |
| Statistics.RangeCountsSumToNonNegative | components/ClassStatisticsModal.tsx:40-49 | the bucket counts add up to the number of non-negative totals |
| Statistics.RangesMatchLevels | components/ClassStatisticsModal.tsx:29-49 | with levels matching balances, each bucket count equals its level count |
| Statistics.AvgBetweenMinMax | components/ClassStatisticsModal.tsx:24-26 | min ≤ rounded average ≤ max |
| Statistics.RoundDivBetween | components/ClassStatisticsModal.tsx:24 | rounding keeps integer bounds the exact quotient respects |
| Statistics.TopFiveLeadLeaderboard | components/ClassStatisticsModal.tsx:58 | the top five are a prefix of the leaderboard |
| Statistics.RedeemShiftsStats | components/ClassStatisticsModal.tsx:22-55 | one accepted redemption lowers the class total by the cost and raises redemptions by one and points spent by the cost |
| Statistics.Median | components/ClassStatisticsModal.tsx:420-425 | 0 for no values, otherwise between the minimum and the maximum; its value is pinned by MedianOfAnyAscending |
| Statistics.MedianSplits | components/ClassStatisticsModal.tsx:420-425 | at least half the values (rounded up) are ≤ the median and at least half are ≥ it |
| Statistics.MiddleOf | components/ClassStatisticsModal.tsx:423-424 | an odd length gives the entry at floor(length / 2); an even one the mean of the two central entries rounded half up; either way between them |
| Statistics.MedianOfAnyAscending | components/ClassStatisticsModal.tsx:420-425 | the median is the middle of any ascending arrangement of the values |
| Statistics.AscendingUnique | components/ClassStatisticsModal.tsx:422 | two ascending lists with the same elements are equal, so the sorted copy is determined by the values |
| Statistics.MiddleCounts | components/ClassStatisticsModal.tsx:420-425 | the middle of an ascending list has half the list, rounded up, at most it and half at least it |
| Statistics.SortedCounts | components/ClassStatisticsModal.tsx:422-424 | in an ascending list, a value between positions a and b has a + 1 values below-or-equal and |s| − b above-or-equal |
| Statistics.MedianExamples | components/ClassStatisticsModal.tsx:420-425 | no values give 0; [1, 2] gives 2, the mean 1.5 rounded half up |
| RewardSettings.Mount | components/RewardSettingsModal.tsx:26-28 | the editor on first mount: the app's catalogue, nothing being edited, no picker open |
| RewardSettings.MountThenSave | components/RewardSettingsModal.tsx:26-66 | saving an untouched editor is accepted iff no catalogue name is blank, and then hands the catalogue back unchanged |
| RewardSettings.AddReward | components/RewardSettingsModal.tsx:32-42 | exactly one reward appended ("Quà mới", "🎁", 50, "Mô tả quà tặng") under the fresh id, which becomes the edited one |
| RewardSettings.SetField | components/RewardSettingsModal.tsx:46 | only the named field changes |
| RewardSettings.UpdateReward | components/RewardSettingsModal.tsx:44-48 | the field is set on rewards with the id; the others are unchanged |
| RewardSettings.UpdateRewardIdempotent | components/RewardSettingsModal.tsx:44-48 | setting a field twice is setting it once, and ids never change |
| RewardSettings.UpdateRewardsCommute | components/RewardSettingsModal.tsx:44-48 | updates to different rewards commute |
| RewardSettings.DeleteReward | components/RewardSettingsModal.tsx:50-55 | keeps exactly the rewards without the id and clears the edited id if it was that one |
| RewardSettings.DeleteRewardRemovesExactly | components/RewardSettingsModal.tsx:52 | deletion removes exactly the id's rewards, keeping the rest with multiplicities |
| RewardSettings.AddThenDeleteRestores | components/RewardSettingsModal.tsx:32-55 | adding under an unused id and deleting it again restores the list and ends editing |
| RewardSettings.Save | components/RewardSettingsModal.tsx:57-66 | refused iff some name is all whitespace; otherwise the list as is |
| RewardSettings.AddRewardKeepsSavable | components/RewardSettingsModal.tsx:32-66 | a newly added reward never blocks a save |
| RewardSettings.ParseCost | components/RewardSettingsModal.tsx:161-164 | the parsed integer, or 0 when it does not parse |
| RewardSettings.ParseCostRoundTrip | components/RewardSettingsModal.tsx:163 | any decimal integer typed, negatives included, is read as itself; on JavaScript numbers this holds for magnitudes up to 2^53 |
| RewardSettings.ParseCostExamples | components/RewardSettingsModal.tsx:163 | "" gives 0 and "-5" gives −5 |
| RewardSettings.SelectEmoji | components/RewardSettingsModal.tsx:68-71 | sets the reward's icon and closes the picker |
| RewardSettings.SelectEmojiSetsIcon | components/RewardSettingsModal.tsx:68-71 | rewards with the id show the emoji; the others are unchanged |
| RewardSettings.TypeEmoji | components/RewardSettingsModal.tsx:135-139 | a non-empty typed emoji is selected; an empty entry does nothing |
| RewardSettings.ToggleEmojiPicker | components/RewardSettingsModal.tsx:109-111 | opens this reward's picker, or closes it when already open |
| RewardSettings.ToggleTwice | components/RewardSettingsModal.tsx:109-111 | toggling twice restores the picker |
| StudentDetail.HistoryNewestFirst | components/StudentDetailModal.tsx:92 | the history reversed, a permutation of it |
| StudentDetail.NewestEntryShowsBalance | components/StudentDetailModal.tsx:92 | on a consistent record the top line shows the current balance |
| StudentDetail.UpdateShowsFirst | components/StudentDetailModal.tsx:92 | after an update its entry is on top and the rest is the old view |
| StudentDetail.LineOf | components/StudentDetailModal.tsx:95-100 | an empty reason reads "Thay đổi điểm"; "+" appears iff the change is positive |
| StudentDetail.OfferedRewards | components/StudentDetailModal.tsx:109 | always the default catalogue |
| StudentDetail.CanAffordIffRedeemAccepted | components/StudentDetailModal.tsx:110-121 | the button is enabled iff the ledger would accept the redemption |
| StudentDetail.AffordableOffers | components/StudentDetailModal.tsx:109-121 | an offer is enabled iff its cost is within the balance; none below 30 points, all from 200 |
| StudentDetail.StatsTabOf | components/StudentDetailModal.tsx:136-159 | gained ≥ 0, lost ≤ 0, the redemption count, at most five names from the front, ellipsis iff more than five |
| StudentDetail.StatsTabComplete | components/StudentDetailModal.tsx:136-159 | the ellipsis shows iff names are hidden; gained + lost is the net change, within a consistent balance |
| StudentDetail.StatsTabAgreesWithExport | components/StudentDetailModal.tsx:138-145 | the view and the spreadsheet report the same gained and lost amounts |
| StudentDetail.RedeemExtendsPreview | components/StudentDetailModal.tsx:155-158 | below five redemptions a new one appends its name to the preview |
| Utils.Initials | utils.ts:196 | the upper-cased first character of the last word, or "A" when empty |
| Utils.AvatarUrl | utils.ts:194-197 | a truthy url unchanged; otherwise the ui-avatars URL with the initials |
| Utils.AvatarExamples | utils.ts:194-197 | "Tran Binh" shows upper("B"); a trailing space falls back to "A" |
| Utils.LastWordAfterSpace | utils.ts:196 | the last word of a + " " + w is w when w has no space |
| Utils.AvatarFollowsLastWord | utils.ts:194-197 | names with the same last word get the same avatar; a trailing space gives "A" |
| Utils.GainedPoints | utils.ts:79 | the sum of positive changes is ≥ 0 |
| Utils.LostPoints | utils.ts:80 | the sum of negative changes is ≤ 0 |
| Utils.GainedPlusLostIsNet | utils.ts:79-80 | gained + lost is the net of all changes |
| Utils.AppendEntryShiftsTotals | utils.ts:79-80 | one new entry moves only the total its sign selects |
| Utils.ApplyDeltaShiftsTotals | App.tsx:120-131 | an award adds to gained, a deduction to lost |
| Utils.OrderCell | utils.ts:72 | the order when present and non-zero, else empty text |
| Utils.TextOrEmpty | utils.ts:75-76 | `x || ''`: the text when present, else empty |
| Utils.RowOf | utils.ts:71-82 | one export row: order cell, id, name, dob and class or "", points, level name, gained, lost as a magnitude, redemption count |
| Utils.ExcelRows | utils.ts:70-82 | one row per student, in order |
| Utils.ExcelRowTotals | utils.ts:79-80 | the gained and lost columns are ≥ 0; their difference is the net change, within a consistent balance |

## Left out

- Persistence: loading and saving through localStorage, `JSON.parse`, and the `classId` migration of stored students. They are I/O.
- Id and clock generation (`uuidv4()`, `new Date().toISOString()`). They are parameters.
- The `window.confirm` / `alert` / `setTimeout` prompts and the confetti animation. These are UI side effects.
  - Confirmations are taken as given.
  - A level-up is a returned boolean.
- Document import: the mammoth/pdf.js text extraction and the regular-expression record extractor. The import starts from already parsed records.
- Workbook writing with XLSX. Only the row values are modelled.
- `getStandardDeviation` and the pie-chart trigonometry. Both are floating point.
- The login screen, the student card, the point-adjustment, add-student and class-settings dialogs. These are rendering and form code that call the modelled handlers.
- Dialog state reset after a handler runs: `setEditingClass(null)` after a rename or delete (App.tsx:261, App.tsx:285), `setNewClassName('')` after adding a class (App.tsx:255), and `onClose()` after saving rewards (components/RewardSettingsModal.tsx:65). They only close or clear form fields.
- Number precision: every JavaScript `number` of the app (totalPoints, change, pointsAfter, cost, order, pointsSpent, and the result of `parseInt`) is an IEEE double; the model uses unbounded integers. It is exact only while every magnitude stays within 2^53. Above that, `parseInt("9007199254740993")` gives 9007199254740992 and sums round, so Text.ParseIntRoundTrip and RewardSettings.ParseCostRoundTrip do not carry over.
- React state batching. The balance check on the `students` snapshot and the later update of `prev` are one step here.
- RewardSettings.Mount: only the first mount. The dialog stays mounted while closed (App.tsx:631-636 renders it always; it returns `null` when closed, after its state hooks, components/RewardSettingsModal.tsx:30). So unsaved edits, the edited reward and an open picker survive closing and reopening, and a reopened editor does not reload the app's catalogue. The model has no close/reopen step.
- Fields of `keyof Reward` other than name, icon, cost and description. The editor only ever updates those four; `id` is never passed.
- Setting the edited reward on focus, and the picker's fixed emoji list. Neither carries logic.
- Text.ParseInt: reads decimal only. The `0x` prefix JavaScript accepts without a radix is not modelled; a number input does not produce it.
- Text.IsWhitespace: the trim set is the ECMAScript whitespace list, on characters rather than UTF-16 code units.
- Utils.Initials: `substring(0, 1)` is taken as the first character, not the first UTF-16 code unit. `toUpperCase` is the parameter `upper`.
- Registry.SortedView: `toLowerCase` and `localeCompare` are the parameters `fold` and `nameLe`. Name sorting is proved ordered only for a `nameLe` that is a total preorder.
- Statistics.Percentage: computed on exact rationals. The source's floating-point `(count / n) * 100` can round differently at an exact half.
- Statistics.RoundDiv: computed on exact rationals, which agree with the source's floating-point division for totals of realistic size.
- LevelRules.GetNextLevelInfo: the percentage is an exact real, not a double.
- Ledger.RedeemReward: three behaviours of the handler that may look unintended are modelled as they are.
  - The stored level is not recomputed after a redemption (see `Ledger.RedeemLeavesStaleLevel`).
  - The shortfall refusal reports the reward's cost, not the missing amount.
  - It is the balance of the first student with the id that is checked.
- RewardSettings.ParseCost: a negative typed cost is not rejected. The editor keeps any parsed integer, negative ones included, and so does the model.
  - The detail view offers only the default catalogue.
  - So an edited reward, negative or not, never reaches the redemption handler.

=== FILE: leaderboard.dfy ===
/**
 * The leaderboard of components/Leaderboard.tsx: the top ten students by
 * points (a sorted copy, so the list itself is untouched) and the rows of its
 * spreadsheet export. The statistics view reuses the same ranking for its top five.
 */
module Leaderboard {
  import opened Types
  import Seqs

  /** The comparator `(a, b) => b.totalPoints - a.totalPoints` as "may stand before". */
  const PointsDesc: (Student, Student) -> bool := (a: Student, b: Student) => a.totalPoints >= b.totalPoints

  lemma PointsDescIsTotalPreorder()
    ensures Seqs.TotalPreorder(PointsDesc)
  {
  }

  /**
   * `[...students].sort((a, b) => b.totalPoints - a.totalPoints).slice(0, k)`:
   * at most `k` students taken from the list, highest first, and nobody left
   * out has more points than anybody taken.
   */
  function TopByPoints(students: seq<Student>, k: nat): (r: seq<Student>)
    ensures |r| == if |students| < k then |students| else k
    ensures multiset(r) <= multiset(students)
    ensures forall i, j :: 0 <= i < j < |r| ==> r[i].totalPoints >= r[j].totalPoints
    ensures forall i, x :: 0 <= i < |r| && x in multiset(students) - multiset(r) ==> x.totalPoints <= r[i].totalPoints
  {
    var sorted := Seqs.SortBy(students, PointsDesc);
    PointsDescIsTotalPreorder();
    Seqs.SortBySorted(students, PointsDesc);
    TakeOfSortedOutranksRest(students, sorted, k);
    Seqs.Take(sorted, k)
  }

  /** A prefix of a list sorted by points outranks everything after it. */
  lemma TakeOfSortedOutranksRest(students: seq<Student>, sorted: seq<Student>, k: nat)
    requires Seqs.SortedBy(sorted, PointsDesc) && multiset(sorted) == multiset(students)
    ensures var r := Seqs.Take(sorted, k);
      && multiset(r) <= multiset(students)
      && (forall i, j :: 0 <= i < j < |r| ==> r[i].totalPoints >= r[j].totalPoints)
      && forall i, x :: 0 <= i < |r| && x in multiset(students) - multiset(r) ==> x.totalPoints <= r[i].totalPoints
  {
    var r := Seqs.Take(sorted, k);
    var rest := sorted[|r|..];
    assert sorted == r + rest;
    assert multiset(sorted) == multiset(r) + multiset(rest);
    forall i, j | 0 <= i < j < |r| ensures r[i].totalPoints >= r[j].totalPoints {
      assert PointsDesc(sorted[i], sorted[j]);
    }
    forall i, x | 0 <= i < |r| && x in multiset(sorted) - multiset(r) ensures x.totalPoints <= r[i].totalPoints {
      assert x in multiset(rest);
      var m :| 0 <= m < |rest| && rest[m] == x;
      assert sorted[|r| + m] == x;
      assert PointsDesc(sorted[i], sorted[|r| + m]);
    }
  }

  /** Students with equal points keep the order they have in the list. */
  lemma TopByPointsStable(students: seq<Student>, k: nat, z: Student)
    ensures Seqs.EquivalentTo(TopByPoints(students, k), z, PointsDesc)
         <= Seqs.EquivalentTo(students, z, PointsDesc)
  {
    var sorted := Seqs.SortBy(students, PointsDesc);
    PointsDescIsTotalPreorder();
    Seqs.SortByStable(students, z, PointsDesc);
    var r := Seqs.Take(sorted, k);
    EquivalentToPrefix(sorted, |r|, z, PointsDesc);
  }

  lemma {:induction false} EquivalentToPrefix<T>(s: seq<T>, n: nat, z: T, le: (T, T) -> bool)
    requires n <= |s|
    ensures Seqs.EquivalentTo(s[..n], z, le) <= Seqs.EquivalentTo(s, z, le)
  {
    if n > 0 {
      EquivalentToPrefix(s[1..], n - 1, z, le);
      assert s[..n][1..] == s[1..][..n - 1];
    }
  }

  /** The week / month / all selector; the ranking does not consult it. */
  datatype TimeFilter = All | Month | Week

  const LeaderboardSize: nat := 10

  /** `sortedStudents` of the leaderboard. */
  function Ranking(students: seq<Student>, filter: TimeFilter): (r: seq<Student>)
    ensures |r| <= LeaderboardSize
    ensures forall i, j :: 0 <= i < j < |r| ==> r[i].totalPoints >= r[j].totalPoints
    ensures multiset(r) <= multiset(students)
  {
    TopByPoints(students, LeaderboardSize)
  }

  /** Switching the time filter leaves the ranking as it is. */
  lemma RankingIgnoresFilter(students: seq<Student>, f: TimeFilter, g: TimeFilter)
    ensures Ranking(students, f) == Ranking(students, g)
  {
  }

  /** A class of at most ten is ranked in full. */
  lemma SmallClassRankedInFull(students: seq<Student>, f: TimeFilter)
    requires |students| <= LeaderboardSize
    ensures multiset(Ranking(students, f)) == multiset(students)
  {
    var r := Ranking(students, f);
    assert |multiset(r)| == |multiset(students)|;
    MultisetSubsetSameSize(multiset(r), multiset(students));
  }

  lemma MultisetSubsetSameSize<T>(a: multiset<T>, b: multiset<T>)
    requires a <= b && |a| == |b|
    ensures a == b
  {
    var d := b - a;
    assert b == a + d;
    assert |d| == 0;
  }

  /** One row of the leaderboard export. */
  datatype ExportRow = ExportRow(rank: int, name: string, levelName: string, points: int, rewardsRedeemed: nat)

  /** `handleExport`'s rows: rank i + 1 for the i-th entry, its name, level name, points and redemption count. */
  function ExportRows(ranking: seq<Student>): (rows: seq<ExportRow>)
    ensures |rows| == |ranking|
    ensures forall i :: 0 <= i < |rows| ==>
      && rows[i].rank == i + 1
      && rows[i].name == ranking[i].name
      && rows[i].points == ranking[i].totalPoints
      && rows[i].levelName == Levels(ranking[i].level).name
      && rows[i].rewardsRedeemed == |ranking[i].rewardsRedeemed|
  {
    seq(|ranking|, i requires 0 <= i < |ranking| =>
      ExportRow(i + 1, ranking[i].name, Levels(ranking[i].level).name, ranking[i].totalPoints, |ranking[i].rewardsRedeemed|))
  }

  /** In the exported leaderboard the ranks run 1, 2, ... and the points never rise down the table. */
  lemma ExportedLeaderboardOrdered(students: seq<Student>, f: TimeFilter)
    ensures var rows := ExportRows(Ranking(students, f));
      && |rows| <= LeaderboardSize
      && (|rows| > 0 ==> rows[0].rank == 1)
      && forall i, j :: 0 <= i < j < |rows| ==> rows[i].rank < rows[j].rank && rows[i].points >= rows[j].points
  {
  }
}

=== FILE: ledger.dfy ===
/**
 * The point ledger of App.tsx: awarding/deducting points (`handleUpdatePoints`)
 * and redeeming a reward (`handleRedeemReward`). Each handler maps the student
 * list to a new list; the level-up celebration becomes a returned flag and the
 * confirmation dialog is taken as already accepted.
 */
module Ledger {
  import opened Types
  import opened LevelRules
  import Seqs

  const AwardReason: string := "Thưởng điểm"
  const DeductReason: string := "Trừ điểm"
  const RedeemReasonPrefix: string := "Đổi quà: "

  function Change(h: PointHistory): int { h.change }

  /** No two students share an id (ids come from a UUID generator). */
  predicate UniqueIds(students: seq<Student>) {
    forall i, j :: 0 <= i < j < |students| ==> students[i].id != students[j].id
  }

  /** The fields a ledger operation never touches are the same in `a` and `b`. */
  predicate SameProfile(a: Student, b: Student) {
    && a.id == b.id && a.classId == b.classId && a.order == b.order && a.name == b.name
    && a.dob == b.dob && a.className == b.className && a.avatar == b.avatar
  }

  /**
   * What every ledger record keeps: a non-negative balance, the newest history
   * entry agreeing with the balance, and the recorded changes never adding up
   * to more than the balance (clamping only ever raises the balance).
   */
  predicate Consistent(s: Student) {
    && s.totalPoints >= 0
    && (|s.pointHistory| > 0 ==> s.pointHistory[|s.pointHistory| - 1].pointsAfter == s.totalPoints)
    && Seqs.Sum(s.pointHistory, Change) <= s.totalPoints
  }

  /** Whether the stored level is the one the balance classifies to. */
  predicate LevelCached(s: Student) {
    s.level == CalculateLevel(s.totalPoints)
  }

  // ---------------------------------------------------------------------
  // handleUpdatePoints

  datatype PointUpdate = PointUpdate(student: Student, leveledUp: bool)

  /** The history reason: the given one unless it is empty, else a default chosen by the sign of `amount`. */
  function ReasonFor(reason: string, amount: int): (r: string)
    ensures reason != "" ==> r == reason
    ensures reason == "" && amount > 0 ==> r == AwardReason
    ensures reason == "" && amount <= 0 ==> r == DeductReason
  {
    if reason != "" then reason else if amount > 0 then AwardReason else DeductReason
  }

  /** The update applied to one matching student. */
  function ApplyDelta(s: Student, amount: int, reason: string, entryId: Id, date: string): (r: PointUpdate)
    ensures r.student.totalPoints >= 0
    ensures r.student.totalPoints >= s.totalPoints + amount
    ensures r.student.totalPoints == s.totalPoints + amount || r.student.totalPoints == 0
    ensures LevelCached(r.student)
    ensures SameProfile(s, r.student) && r.student.rewardsRedeemed == s.rewardsRedeemed
    ensures |r.student.pointHistory| == |s.pointHistory| + 1
    ensures r.student.pointHistory[..|s.pointHistory|] == s.pointHistory
    ensures r.student.pointHistory[|s.pointHistory|]
         == PointHistory(entryId, date, amount, ReasonFor(reason, amount), r.student.totalPoints)
    ensures r.leveledUp <==> Levels(r.student.level).min > Levels(s.level).min
  {
    var newPoints := if s.totalPoints + amount > 0 then s.totalPoints + amount else 0;
    var newLevel := CalculateLevel(newPoints);
    var item := PointHistory(entryId, date, amount, ReasonFor(reason, amount), newPoints);
    var updated := s.(totalPoints := newPoints, level := newLevel, pointHistory := s.pointHistory + [item]);
    PointUpdate(updated, Levels(newLevel).min > Levels(s.level).min)
  }

  datatype LedgerUpdate = LedgerUpdate(students: seq<Student>, leveledUp: bool)

  /** `handleUpdatePoints`: every student with the id gets the update; the others are kept as they are. */
  function UpdatePoints(students: seq<Student>, id: Id, amount: int, reason: string, entryId: Id, date: string)
    : (r: LedgerUpdate)
    ensures |r.students| == |students|
    ensures forall i :: 0 <= i < |students| && students[i].id != id ==> r.students[i] == students[i]
    ensures forall i :: 0 <= i < |students| && students[i].id == id ==>
      r.students[i] == ApplyDelta(students[i], amount, reason, entryId, date).student
    ensures r.leveledUp <==>
      exists i :: 0 <= i < |students| && students[i].id == id && ApplyDelta(students[i], amount, reason, entryId, date).leveledUp
  {
    if |students| == 0 then LedgerUpdate([], false)
    else
      var rest := UpdatePoints(students[1..], id, amount, reason, entryId, date);
      var s := students[0];
      if s.id != id then
        LedgerUpdate([s] + rest.students, rest.leveledUp)
      else
        var u := ApplyDelta(s, amount, reason, entryId, date);
        LedgerUpdate([u.student] + rest.students, u.leveledUp || rest.leveledUp)
  }

  /** An id nobody has leaves the list unchanged and signals nothing. */
  lemma UpdatePointsUnknownId(students: seq<Student>, id: Id, amount: int, reason: string, entryId: Id, date: string)
    requires forall i :: 0 <= i < |students| ==> students[i].id != id
    ensures UpdatePoints(students, id, amount, reason, entryId, date) == LedgerUpdate(students, false)
  {
    var r := UpdatePoints(students, id, amount, reason, entryId, date);
    assert r.students == students;
  }

  /** The new balance is the old one plus `amount`, clamped at zero. */
  lemma ApplyDeltaClamps(s: Student, amount: int, reason: string, entryId: Id, date: string)
    ensures ApplyDelta(s, amount, reason, entryId, date).student.totalPoints
         == if s.totalPoints + amount < 0 then 0 else s.totalPoints + amount
  {
  }

  /**
   * With a stored level that matches the balance, the celebration fires
   * exactly when the tier rises, which needs a positive amount.
   */
  lemma LevelUpIffTierRises(s: Student, amount: int, reason: string, entryId: Id, date: string)
    requires LevelCached(s) && s.totalPoints >= 0
    ensures var r := ApplyDelta(s, amount, reason, entryId, date);
      && (r.leveledUp <==> Rank(r.student.level) > Rank(s.level))
      && (r.leveledUp ==> amount > 0)
  {
    var r := ApplyDelta(s, amount, reason, entryId, date);
    LevelMinStrictlyIncreasing(s.level, r.student.level);
    LevelMinStrictlyIncreasing(r.student.level, s.level);
    if amount <= 0 {
      CalculateLevelMonotone(r.student.totalPoints, s.totalPoints);
    }
  }

  /** 18 + 5 crosses into the sprout tier and fires; 25 + 5 stays a sprout and does not. */
  lemma LevelUpExamples(s: Student)
    requires LevelCached(s)
    ensures s.totalPoints == 18 ==> ApplyDelta(s, 5, "", "h", "d").leveledUp
    ensures s.totalPoints == 25 ==> !ApplyDelta(s, 5, "", "h", "d").leveledUp
    ensures s.totalPoints == 5 ==>
      var r := ApplyDelta(s, -100, "", "h", "d");
      r.student.totalPoints == 0 && r.student.pointHistory[|s.pointHistory|].change == -100
        && r.student.pointHistory[|s.pointHistory|].pointsAfter == 0
        && r.student.pointHistory[|s.pointHistory|].reason == DeductReason
  {
  }

  /** A point update keeps a consistent record consistent. */
  lemma ApplyDeltaPreservesConsistent(s: Student, amount: int, reason: string, entryId: Id, date: string)
    requires Consistent(s)
    ensures Consistent(ApplyDelta(s, amount, reason, entryId, date).student)
  {
    var r := ApplyDelta(s, amount, reason, entryId, date).student;
    var item := r.pointHistory[|s.pointHistory|];
    assert r.pointHistory == s.pointHistory + [item];
    Seqs.SumAppend(s.pointHistory, [item], Change);
    assert Seqs.Sum([item], Change) == amount;
  }

  /** Applying `UpdatePoints` keeps every record of the list consistent. */
  lemma UpdatePointsPreservesConsistent(students: seq<Student>, id: Id, amount: int, reason: string, entryId: Id, date: string)
    requires forall i :: 0 <= i < |students| ==> Consistent(students[i])
    ensures var r := UpdatePoints(students, id, amount, reason, entryId, date);
      forall i :: 0 <= i < |r.students| ==> Consistent(r.students[i])
  {
    forall i | 0 <= i < |students| && students[i].id == id {
      ApplyDeltaPreservesConsistent(students[i], amount, reason, entryId, date);
    }
  }

  // ---------------------------------------------------------------------
  // handleRedeemReward

  /** Why a redemption was refused; the shortfall message quotes the reward's cost. */
  datatype RedeemError = StudentNotFound | InsufficientPoints(cost: int)

  /** `students.find(s => s.id === id)`. */
  function Find(students: seq<Student>, id: Id): (r: Option<Student>)
    ensures r.None? <==> forall i :: 0 <= i < |students| ==> students[i].id != id
    ensures r.Some? ==> exists i :: (0 <= i < |students| && students[i] == r.value && students[i].id == id
                                     && forall j :: 0 <= j < i ==> students[j].id != id)
  {
    if |students| == 0 then None
    else if students[0].id == id then Some(students[0])
    else
      var r := Find(students[1..], id);
      if r.Some? then
        var k :| 0 <= k < |students[1..]| && students[1..][k] == r.value && students[1..][k].id == id
          && forall j :: 0 <= j < k ==> students[1..][j].id != id;
        assert students[k + 1] == r.value;
        r
      else r
  }

  /** The redemption applied to the matching student; the stored level is left as it was. */
  function Debit(s: Student, reward: Reward, historyId: Id, redemptionId: Id, date: string): (r: Student)
    ensures r.totalPoints == s.totalPoints - reward.cost
    ensures r.level == s.level
    ensures SameProfile(s, r)
    ensures |r.pointHistory| == |s.pointHistory| + 1 && r.pointHistory[..|s.pointHistory|] == s.pointHistory
    ensures r.pointHistory[|s.pointHistory|]
         == PointHistory(historyId, date, -reward.cost, RedeemReasonPrefix + reward.name, r.totalPoints)
    ensures |r.rewardsRedeemed| == |s.rewardsRedeemed| + 1 && r.rewardsRedeemed[..|s.rewardsRedeemed|] == s.rewardsRedeemed
    ensures r.rewardsRedeemed[|s.rewardsRedeemed|] == RedeemedReward(redemptionId, date, reward.name, reward.cost)
  {
    var redeemed := RedeemedReward(redemptionId, date, reward.name, reward.cost);
    var item := PointHistory(historyId, date, -reward.cost, RedeemReasonPrefix + reward.name, s.totalPoints - reward.cost);
    s.(totalPoints := s.totalPoints - reward.cost,
       pointHistory := s.pointHistory + [item],
       rewardsRedeemed := s.rewardsRedeemed + [redeemed])
  }

  /** Debits every student with the id. */
  function DebitAll(students: seq<Student>, id: Id, reward: Reward, historyId: Id, redemptionId: Id, date: string)
    : (r: seq<Student>)
    ensures |r| == |students|
    ensures forall i :: 0 <= i < |students| ==>
      r[i] == if students[i].id == id then Debit(students[i], reward, historyId, redemptionId, date) else students[i]
  {
    if |students| == 0 then []
    else
      var s := students[0];
      [if s.id == id then Debit(s, reward, historyId, redemptionId, date) else s]
        + DebitAll(students[1..], id, reward, historyId, redemptionId, date)
  }

  /**
   * `handleRedeemReward`: refused for an unknown student or one whose balance
   * (the first match's) is below the cost; otherwise the matching students are debited.
   */
  function RedeemReward(students: seq<Student>, studentId: Id, reward: Reward, historyId: Id, redemptionId: Id, date: string)
    : (r: Result<seq<Student>, RedeemError>)
    ensures r == Err(StudentNotFound) <==> forall i :: 0 <= i < |students| ==> students[i].id != studentId
    ensures r.Err? && r.error.InsufficientPoints? ==> r.error.cost == reward.cost
    ensures r.Ok? ==> |r.value| == |students|
  {
    match Find(students, studentId)
    case None => Err(StudentNotFound)
    case Some(s) =>
      if s.totalPoints < reward.cost then Err(InsufficientPoints(reward.cost))
      else Ok(DebitAll(students, studentId, reward, historyId, redemptionId, date))
  }

  /**
   * For the student at index `k` (ids unique): the redemption succeeds exactly
   * when the balance covers the cost; then that student is debited by exactly
   * the cost, gains one history entry and one redemption, keeps a non-negative
   * balance, and nobody else changes.
   */
  lemma RedeemRewardAt(students: seq<Student>, k: int, reward: Reward, historyId: Id, redemptionId: Id, date: string)
    requires UniqueIds(students) && 0 <= k < |students|
    ensures var r := RedeemReward(students, students[k].id, reward, historyId, redemptionId, date);
      && (r.Ok? <==> students[k].totalPoints >= reward.cost)
      && (r.Err? ==> r.error == InsufficientPoints(reward.cost))
      && (r.Ok? ==>
            && r.value[k] == Debit(students[k], reward, historyId, redemptionId, date)
            && r.value[k].totalPoints == students[k].totalPoints - reward.cost
            && (students[k].totalPoints >= 0 ==> r.value[k].totalPoints >= 0)
            && forall j :: 0 <= j < |students| && j != k ==> r.value[j] == students[j])
  {
    var f := Find(students, students[k].id);
    assert f.Some?;
    var i :| 0 <= i < |students| && students[i] == f.value && students[i].id == students[k].id
      && forall j :: 0 <= j < i ==> students[j].id != students[k].id;
    assert i == k;
  }

  /** 10 points cannot buy a 30-point reward; 100 points buy an 80-point one and 20 remain. */
  lemma RedeemExamples(s: Student, reward: Reward)
    ensures s.totalPoints == 10 && reward.cost == 30 ==>
      RedeemReward([s], s.id, reward, "h", "r", "d") == Err(InsufficientPoints(30))
    ensures s.totalPoints == 100 && reward.cost == 80 ==>
      var r := RedeemReward([s], s.id, reward, "h", "r", "d");
      r.Ok? && r.value[0].totalPoints == 20
        && |r.value[0].pointHistory| == |s.pointHistory| + 1
        && |r.value[0].rewardsRedeemed| == |s.rewardsRedeemed| + 1
  {
  }

  /** A debit the balance covers keeps the record consistent. */
  lemma DebitPreservesConsistent(s: Student, reward: Reward, historyId: Id, redemptionId: Id, date: string)
    requires Consistent(s) && reward.cost <= s.totalPoints
    ensures Consistent(Debit(s, reward, historyId, redemptionId, date))
  {
    var r := Debit(s, reward, historyId, redemptionId, date);
    var item := r.pointHistory[|s.pointHistory|];
    assert r.pointHistory == s.pointHistory + [item];
    Seqs.SumAppend(s.pointHistory, [item], Change);
    assert Seqs.Sum([item], Change) == -reward.cost;
  }

  /** With unique ids, an accepted redemption keeps every record consistent, in particular every balance non-negative. */
  lemma RedeemRewardPreservesConsistent(students: seq<Student>, studentId: Id, reward: Reward, historyId: Id, redemptionId: Id, date: string)
    requires UniqueIds(students)
    requires forall i :: 0 <= i < |students| ==> Consistent(students[i])
    ensures var r := RedeemReward(students, studentId, reward, historyId, redemptionId, date);
      r.Ok? ==> forall i :: 0 <= i < |r.value| ==> Consistent(r.value[i])
  {
    var r := RedeemReward(students, studentId, reward, historyId, redemptionId, date);
    if r.Ok? {
      var k :| 0 <= k < |students| && students[k].id == studentId;
      RedeemRewardAt(students, k, reward, historyId, redemptionId, date);
      DebitPreservesConsistent(students[k], reward, historyId, redemptionId, date);
    }
  }

  /**
   * The stored level is not recomputed on redemption: starting from a matching
   * level, it still matches afterwards exactly when the debit stays inside the tier.
   */
  lemma DebitLevelCache(s: Student, reward: Reward, historyId: Id, redemptionId: Id, date: string)
    requires LevelCached(s)
    ensures LevelCached(Debit(s, reward, historyId, redemptionId, date))
        <==> CalculateLevel(s.totalPoints - reward.cost) == CalculateLevel(s.totalPoints)
  {
  }

  /** A tree-tier student at 100 points who spends 80 keeps the stored tree level with 20 points. */
  lemma RedeemLeavesStaleLevel(s: Student, reward: Reward)
    requires LevelCached(s) && s.totalPoints == 100 && reward.cost == 80
    ensures var r := Debit(s, reward, "h", "r", "d");
      r.totalPoints == 20 && r.level == CayTo && !LevelCached(r)
  {
  }
}

=== FILE: levels.dfy ===
/**
 * The level classifier and the "progress to next tier" derivation.
 */
module LevelRules {
  import opened Types

  /**
   * The tier of a point total, read off the level table from the top down.
   * A boundary value belongs to the higher tier; negative totals are seeds.
   */
  function CalculateLevel(points: int): (l: Level)
    ensures l == CayTo <==> points >= 100
    ensures l == CayCon <==> 50 <= points < 100
    ensures l == NayMam <==> 20 <= points < 50
    ensures l == Hat <==> points < 20
  {
    if points >= Levels(CayTo).min then CayTo
    else if points >= Levels(CayCon).min then CayCon
    else if points >= Levels(NayMam).min then NayMam
    else Hat
  }

  /** A larger total never classifies lower. */
  lemma CalculateLevelMonotone(p: int, q: int)
    requires p <= q
    ensures Levels(CalculateLevel(p)).min <= Levels(CalculateLevel(q)).min
    ensures Rank(CalculateLevel(p)) <= Rank(CalculateLevel(q))
  {
  }

  /** A non-negative total lies inside the bounds its tier's row gives. */
  lemma CalculateLevelWithinTier(p: int)
    requires p >= 0
    ensures Levels(CalculateLevel(p)).min <= p
    ensures Levels(CalculateLevel(p)).max.Some? ==> p <= Levels(CalculateLevel(p)).max.value
  {
  }

  /** The tier's own minimum classifies as that tier. */
  lemma CalculateLevelOfMin(l: Level)
    ensures CalculateLevel(Levels(l).min) == l
  {
  }

  /** The tier following a non-top tier. */
  function NextLevel(l: Level): (n: Level)
    requires l != CayTo
    ensures Rank(n) == Rank(l) + 1
  {
    LevelAt(Rank(l) + 1)
  }

  datatype NextLevelInfo = NextLevelInfo(percent: real, remaining: int, nextLevelName: string)

  /** `Math.min(hi, Math.max(lo, x))`. */
  function Clamp(lo: real, hi: real, x: real): (r: real)
    requires lo <= hi
    ensures lo <= r <= hi
    ensures lo <= x <= hi ==> r == x
    ensures x < lo ==> r == lo
    ensures x > hi ==> r == hi
  {
    if x < lo then lo else if x > hi then hi else x
  }

  /**
   * Progress towards the next tier. Below the top the next minimum and name
   * are spelled out per tier (20 / 50 / 100), the percentage is the progress
   * inside the current tier scaled to [0, 100], and `remaining` the points
   * still missing.
   */
  function GetNextLevelInfo(currentPoints: int): (r: NextLevelInfo)
    ensures 0.0 <= r.percent <= 100.0
    ensures CalculateLevel(currentPoints) == CayTo <==> r.nextLevelName == "Max Level"
    ensures CalculateLevel(currentPoints) == CayTo ==> r.percent == 100.0 && r.remaining == 0
    ensures CalculateLevel(currentPoints) != CayTo ==>
      var next := NextLevel(CalculateLevel(currentPoints));
      && r.remaining == Levels(next).min - currentPoints
      && r.remaining > 0
      && r.nextLevelName == Levels(next).name
  {
    var level := CalculateLevel(currentPoints);
    if level == CayTo then
      NextLevelInfo(100.0, 0, "Max Level")
    else
      var (nextMin, nextName) :=
        if level == Hat then (20, "Nảy mầm")
        else if level == NayMam then (50, "Cây con")
        else (100, "Cây to");
      var range := nextMin - Levels(level).min;
      var progress := currentPoints - Levels(level).min;
      var percent := Clamp(0.0, 100.0, (progress as real / range as real) * 100.0);
      NextLevelInfo(percent, nextMin - currentPoints, nextName)
  }

  /** Inside a non-top tier the percentage is exactly the share of the tier already covered. */
  lemma NextLevelPercentIsProgress(p: int)
    requires 0 <= p < 100
    ensures var l := CalculateLevel(p);
      GetNextLevelInfo(p).percent
        == (p - Levels(l).min) as real * 100.0 / (Levels(NextLevel(l)).min - Levels(l).min) as real
  {
  }
}

=== FILE: registry.dfy ===
/**
 * The student and class registry of App.tsx: adding and importing students,
 * deleting one student or a whole class's students, creating, renaming and
 * deleting classes (with the default-class safety net), the sort toggle and
 * the searched, sorted view of the current class.
 */
module Registry {
  import opened Types
  import opened Text
  import Seqs

  datatype SortKey = ByName | ByPoints | ByOrder
  datatype SortDir = Asc | Desc
  datatype SortConfig = SortConfig(key: SortKey, dir: SortDir)

  /** The list starts sorted by points, highest first. */
  const InitialSortConfig: SortConfig := SortConfig(ByPoints, Desc)

  /** The app's persistent state apart from the reward catalogue. */
  datatype AppState = AppState(
    students: seq<Student>,
    classes: seq<ClassGroup>,
    currentClassId: Id,
    sortConfig: SortConfig)

  const NewStudentName: string := "Học sinh mới"
  /** The order a missing `order` stands for when sorting by order. */
  const MissingOrderKey: int := 9999

  /** `students.filter(s => s.classId === cid)`. */
  function ClassMembers(students: seq<Student>, cid: Id): (r: seq<Student>)
    ensures forall x :: multiset(r)[x] == if x.classId == cid then multiset(students)[x] else 0
    ensures forall i :: 0 <= i < |r| ==> r[i].classId == cid
  {
    Seqs.Filter(students, (s: Student) => s.classId == cid)
  }

  predicate HasClassId(classes: seq<ClassGroup>, cid: Id) {
    exists i :: 0 <= i < |classes| && classes[i].id == cid
  }

  /** `classes.find(c => c.id === currentClassId) || classes[0]`; nothing only when there are no classes. */
  function CurrentClass(st: AppState): (r: Option<ClassGroup>)
    ensures r.None? <==> |st.classes| == 0
    ensures r.Some? && r.value.id == st.currentClassId ==> r.value in st.classes
    ensures HasClassId(st.classes, st.currentClassId) ==> r.Some? && FirstWithId(st.classes, st.currentClassId, r.value)
    ensures !HasClassId(st.classes, st.currentClassId) && |st.classes| > 0 ==> r == Some(st.classes[0])
  {
    FindClass(st.classes, st.currentClassId, st.classes)
  }

  /** With two classes under the current id, the earlier one is current, as `find` picks it. */
  lemma CurrentClassPicksFirstDuplicate(st: AppState, a: ClassGroup, b: ClassGroup)
    requires st.classes == [a, b] && a.id == b.id == st.currentClassId
    ensures CurrentClass(st) == Some(a)
  {
  }

  /** `c` is the first class of `cs` with the id `cid`, the one `Array.find` returns. */
  predicate FirstWithId(cs: seq<ClassGroup>, cid: Id, c: ClassGroup) {
    exists i :: 0 <= i < |cs| && cs[i] == c && c.id == cid && forall j :: 0 <= j < i ==> cs[j].id != cid
  }

  function FindClass(cs: seq<ClassGroup>, cid: Id, all: seq<ClassGroup>): (r: Option<ClassGroup>)
    ensures HasClassId(cs, cid) ==> r.Some? && FirstWithId(cs, cid, r.value)
    ensures !HasClassId(cs, cid) ==> r == if |all| > 0 then Some(all[0]) else None
  {
    if |cs| == 0 then (if |all| > 0 then Some(all[0]) else None)
    else if cs[0].id == cid then Some(cs[0])
    else
      var r := FindClass(cs[1..], cid, all);
      assert HasClassId(cs, cid) ==> HasClassId(cs[1..], cid) by {
        if HasClassId(cs, cid) {
          var i :| 0 <= i < |cs| && cs[i].id == cid;
          assert cs[1..][i - 1] == cs[i];
        }
      }
      assert HasClassId(cs[1..], cid) ==> HasClassId(cs, cid) by {
        if HasClassId(cs[1..], cid) {
          var i :| 0 <= i < |cs[1..]| && cs[1..][i].id == cid;
          assert cs[i + 1] == cs[1..][i];
        }
      }
      if HasClassId(cs[1..], cid) then
        var k :| 0 <= k < |cs[1..]| && cs[1..][k] == r.value && r.value.id == cid
          && forall j :: 0 <= j < k ==> cs[1..][j].id != cid;
        assert cs[k + 1] == r.value;
        r
      else r
  }

  // ---------------------------------------------------------------------
  // Adding and importing students

  /** `s.order || 0`: a missing order counts as 0. */
  function OrderOrZero(s: Student): int {
    s.order.GetOr(0)
  }

  /** `Math.max(0, ...students.map(s => s.order || 0))`. */
  function MaxOrder(students: seq<Student>): (m: int)
    ensures m >= 0
    ensures forall i :: 0 <= i < |students| ==> OrderOrZero(students[i]) <= m
    ensures m == 0 || exists i :: 0 <= i < |students| && OrderOrZero(students[i]) == m
  {
    if |students| == 0 then 0
    else
      var rest := MaxOrder(students[1..]);
      var o := OrderOrZero(students[0]);
      if o > rest then o
      else
        assert rest == 0 || exists i :: 1 <= i < |students| && OrderOrZero(students[i]) == rest by {
          if rest != 0 {
            var i :| 0 <= i < |students[1..]| && OrderOrZero(students[1..][i]) == rest;
            assert students[i + 1] == students[1..][i];
          }
        }
        rest
  }

  /** `k` is one more than the largest order among `members`, where none or only non-positive ones count as 0. */
  predicate IsNextOrder(members: seq<Student>, k: int) {
    && (forall i :: 0 <= i < |members| ==> OrderOrZero(members[i]) < k)
    && (k == 1 || exists i :: 0 <= i < |members| && OrderOrZero(members[i]) == k - 1)
  }

  /** A fresh record: no points, the seed level, empty histories, no avatar. */
  function NewStudent(id: Id, classId: Id, order: int, name: string, dob: Option<string>, className: Option<string>)
    : Student
  {
    Student(id, classId, Some(order), name, dob, className, None, 0, Hat, [], [])
  }

  predicate IsFresh(s: Student) {
    s.totalPoints == 0 && s.level == Hat && s.pointHistory == [] && s.rewardsRedeemed == [] && s.avatar.None?
  }

  /**
   * `handleAddStudentWrapper`: appends one fresh student to the current class;
   * without a given order it takes the next order after the class's largest.
   */
  function AddStudent(st: AppState, name: string, order: Option<int>, newId: Id): (r: AppState)
    ensures r.classes == st.classes && r.currentClassId == st.currentClassId && r.sortConfig == st.sortConfig
    ensures |r.students| == |st.students| + 1 && r.students[..|st.students|] == st.students
    ensures var n := r.students[|st.students|];
      && n.id == newId && n.classId == st.currentClassId && n.name == name
      && IsFresh(n) && n.dob.None? && n.className.None? && n.order.Some?
      && (order.Some? ==> n.order == order)
      && (order.None? ==> IsNextOrder(ClassMembers(st.students, st.currentClassId), n.order.value))
  {
    var maxOrder := MaxOrder(ClassMembers(st.students, st.currentClassId));
    var n := NewStudent(newId, st.currentClassId, order.GetOr(maxOrder + 1), name, None, None);
    st.(students := st.students + [n])
  }

  /** A record extracted from an imported document. */
  datatype ParsedRecord = ParsedRecord(order: Option<int>, name: Option<string>, dob: Option<string>, className: Option<string>)

  /** `p.order || (maxOrder + index + 1)`: a missing or zero order falls back to the running sequence. */
  function ImportOrder(p: ParsedRecord, maxOrder: int, index: nat): (o: int)
    ensures p.order.Some? && p.order.value != 0 ==> o == p.order.value
    ensures maxOrder >= 0 ==> o != 0
    ensures p.order.None? || p.order.value == 0 ==> o > maxOrder && o - index == maxOrder + 1
  {
    if p.order.Some? && p.order.value != 0 then p.order.value else maxOrder + index + 1
  }

  /** `p.name || 'Học sinh mới'`: a missing or empty name becomes the placeholder. */
  function ImportName(p: ParsedRecord): (r: string)
    ensures r != ""
    ensures p.name.Some? && p.name.value != "" ==> r == p.name.value
    ensures r != NewStudentName ==> p.name == Some(r)
  {
    if p.name.Some? && p.name.value != "" then p.name.value else NewStudentName
  }

  /**
   * `handleImport` after parsing: the imported students are appended after
   * every existing one, in record order and in the current class, with the
   * fallback orders counted from the current class's largest order; the list
   * then sorts by order ascending. A document with no records makes the parser
   * throw, and the handler only reports the error, so nothing changes.
   */
  function ImportStudents(st: AppState, parsed: seq<ParsedRecord>, ids: seq<Id>): (r: AppState)
    requires |ids| == |parsed|
    ensures |parsed| == 0 ==> r == st
    ensures r.classes == st.classes && r.currentClassId == st.currentClassId
    ensures |parsed| > 0 ==> r.sortConfig == SortConfig(ByOrder, Asc)
    ensures |r.students| == |st.students| + |parsed| && r.students[..|st.students|] == st.students
    ensures r.students[|st.students|..]
         == Imported(parsed, ids, st.currentClassId, MaxOrder(ClassMembers(st.students, st.currentClassId)))
  {
    if |parsed| == 0 then st
    else
      var added := Imported(parsed, ids, st.currentClassId, MaxOrder(ClassMembers(st.students, st.currentClassId)));
      AppState(st.students + added, st.classes, st.currentClassId, SortConfig(ByOrder, Asc))
  }

  /**
   * The students built from the records, one per record in order: fresh, in
   * the class, under the given ids, with each record's date of birth and
   * class name, its name unless missing or empty (then "Học sinh mới"), and
   * its order unless missing or zero (then the `i`-th order after `maxOrder`).
   */
  function Imported(parsed: seq<ParsedRecord>, ids: seq<Id>, classId: Id, maxOrder: int): (added: seq<Student>)
    requires |ids| == |parsed|
    ensures |added| == |parsed|
    ensures forall i :: 0 <= i < |parsed| ==>
      var n, p := added[i], parsed[i];
      && n.id == ids[i] && n.classId == classId && IsFresh(n)
      && n.dob == p.dob && n.className == p.className
      && (p.name.Some? && p.name.value != "" ==> n.name == p.name.value)
      && (p.name.None? || p.name.value == "" ==> n.name == NewStudentName)
      && (p.order.Some? && p.order.value != 0 ==> n.order == p.order)
      && (p.order.None? || p.order.value == 0 ==> n.order == Some(maxOrder + i + 1))
  {
    seq(|parsed|, i requires 0 <= i < |parsed| =>
      NewStudent(ids[i], classId, ImportOrder(parsed[i], maxOrder, i), ImportName(parsed[i]),
                 parsed[i].dob, parsed[i].className))
  }

  /**
   * Records without a usable order get orders that climb by one with the
   * record's position and all lie above every order already in the class.
   */
  lemma ImportFallbackOrdersFresh(members: seq<Student>, parsed: seq<ParsedRecord>, ids: seq<Id>, classId: Id, i: int, j: int)
    requires |ids| == |parsed| && 0 <= i < j < |parsed|
    requires parsed[i].order.None? || parsed[i].order.value == 0
    requires parsed[j].order.None? || parsed[j].order.value == 0
    ensures var added := Imported(parsed, ids, classId, MaxOrder(members));
      && added[i].order.Some? && added[j].order.Some?
      && added[j].order.value - added[i].order.value == j - i
      && forall m :: 0 <= m < |members| ==> OrderOrZero(members[m]) < added[i].order.value
  {
  }

  // ---------------------------------------------------------------------
  // Deleting students

  /** `handleDeleteStudent` once confirmed: an unknown id changes nothing, otherwise every record with the id goes. */
  function DeleteStudent(students: seq<Student>, id: Id): (r: seq<Student>)
    ensures forall x :: multiset(r)[x] == if x.id == id then 0 else multiset(students)[x]
    ensures (forall i :: 0 <= i < |students| ==> students[i].id != id) ==> r == students
  {
    if forall i :: 0 <= i < |students| ==> students[i].id != id then students
    else Seqs.Filter(students, (s: Student) => s.id != id)
  }

  /** `handleDeleteAllStudentsInClass` once confirmed twice: an empty class changes nothing, otherwise its students go. */
  function DeleteAllStudentsInClass(students: seq<Student>, cid: Id): (r: seq<Student>)
    ensures forall x :: multiset(r)[x] == if x.classId == cid then 0 else multiset(students)[x]
    ensures (forall i :: 0 <= i < |students| ==> students[i].classId != cid) ==> r == students
  {
    if |ClassMembers(students, cid)| == 0 then
      assert forall i :: 0 <= i < |students| ==> students[i].classId != cid by {
        assert multiset(ClassMembers(students, cid)) == multiset{};
        forall i | 0 <= i < |students| ensures students[i].classId != cid {
          assert students[i] in multiset(students);
        }
      }
      students
    else Seqs.Filter(students, (s: Student) => s.classId != cid)
  }

  /** After a bulk deletion the class is empty and every other class keeps exactly its students. */
  lemma DeleteAllStudentsEmptiesClass(students: seq<Student>, cid: Id, other: Id)
    requires other != cid
    ensures ClassMembers(DeleteAllStudentsInClass(students, cid), cid) == []
    ensures multiset(ClassMembers(DeleteAllStudentsInClass(students, cid), other))
         == multiset(ClassMembers(students, other))
  {
    var r := DeleteAllStudentsInClass(students, cid);
    var m := ClassMembers(r, cid);
    forall x: Student ensures multiset(m)[x] == 0 {
    }
    assert multiset(m) == multiset{};
  }

  // ---------------------------------------------------------------------
  // Classes

  /** `handleAddClass`: a blank name is ignored; otherwise the trimmed name becomes a new class, made current. */
  function AddClass(st: AppState, newName: string, newId: Id): (r: AppState)
    ensures AllWhitespace(newName) ==> r == st
    ensures !AllWhitespace(newName) ==>
      && r.classes == st.classes + [ClassGroup(newId, Trim(newName))]
      && Trim(newName) != "" && r.currentClassId == newId
      && r.students == st.students && r.sortConfig == st.sortConfig
  {
    if Trim(newName) == "" then st
    else st.(classes := st.classes + [ClassGroup(newId, Trim(newName))], currentClassId := newId)
  }

  /** `handleUpdateCurrentClass`: renames the class being edited, if any; ids and order stay. */
  function RenameClass(st: AppState, editing: Option<ClassGroup>, name: string): (r: AppState)
    ensures editing.None? ==> r == st
    ensures r.students == st.students && r.currentClassId == st.currentClassId && r.sortConfig == st.sortConfig
    ensures |r.classes| == |st.classes|
    ensures forall i :: 0 <= i < |st.classes| ==>
      && r.classes[i].id == st.classes[i].id
      && r.classes[i].name == if editing.Some? && st.classes[i].id == editing.value.id then name else st.classes[i].name
  {
    match editing
    case None => st
    case Some(e) =>
      st.(classes := seq(|st.classes|, i requires 0 <= i < |st.classes| =>
        if st.classes[i].id == e.id then st.classes[i].(name := name) else st.classes[i]))
  }

  /** Why a class could not be deleted: it still has this many students. */
  datatype ClassError = ClassNotEmpty(count: nat)

  function OtherThan(cid: Id): ClassGroup -> bool {
    (c: ClassGroup) => c.id != cid
  }

  /** `classes.filter(c => c.id !== cid)`. */
  function RemoveClass(classes: seq<ClassGroup>, cid: Id): (r: seq<ClassGroup>)
    ensures forall c :: multiset(r)[c] == if c.id == cid then 0 else multiset(classes)[c]
    ensures !HasClassId(r, cid)
    ensures forall i :: 0 <= i < |classes| && classes[i].id != cid ==> HasClassId(r, classes[i].id)
  {
    var r := Seqs.Filter(classes, OtherThan(cid));
    forall i | 0 <= i < |classes| && classes[i].id != cid ensures HasClassId(r, classes[i].id) {
      assert classes[i] in multiset(classes);
      assert classes[i] in multiset(r);
    }
    r
  }

  /**
   * `handleDeleteClass` once confirmed: refused while any student belongs to
   * the class; otherwise the class goes and, if it was current, the first
   * remaining class becomes current.
   */
  function DeleteClass(st: AppState, cid: Id): (r: Result<AppState, ClassError>)
    ensures r.Err? <==> exists i :: 0 <= i < |st.students| && st.students[i].classId == cid
    ensures r.Err? ==> r.error.count == |ClassMembers(st.students, cid)| > 0
    ensures r.Ok? ==>
      && r.value.students == st.students && r.value.sortConfig == st.sortConfig
      && r.value.classes == RemoveClass(st.classes, cid)
      && r.value.currentClassId ==
           if st.currentClassId == cid && |r.value.classes| > 0 then r.value.classes[0].id else st.currentClassId
  {
    var count := |ClassMembers(st.students, cid)|;
    if count > 0 then
      assert exists i :: 0 <= i < |st.students| && st.students[i].classId == cid by {
        var m := ClassMembers(st.students, cid);
        assert m[0] in multiset(m);
        assert m[0] in multiset(st.students);
      }
      Err(ClassNotEmpty(count))
    else
      assert forall i :: 0 <= i < |st.students| ==> st.students[i].classId != cid by {
        forall i | 0 <= i < |st.students| ensures st.students[i].classId != cid {
          assert st.students[i] in multiset(st.students);
        }
      }
      var newClasses := RemoveClass(st.classes, cid);
      var current := if st.currentClassId == cid && |newClasses| > 0 then newClasses[0].id else st.currentClassId;
      Ok(st.(classes := newClasses, currentClassId := current))
  }

  /** `handleDeleteEditingClass`: the same rule applied to the class being edited, if any. */
  function DeleteEditingClass(st: AppState, editing: Option<ClassGroup>): (r: Result<AppState, ClassError>)
    ensures editing.None? ==> r == Ok(st)
    ensures editing.Some? ==> r == DeleteClass(st, editing.value.id)
  {
    match editing
    case None => Ok(st)
    case Some(c) =>
      var count := |ClassMembers(st.students, c.id)|;
      if count > 0 then Err(ClassNotEmpty(count))
      else
        var newClasses := RemoveClass(st.classes, c.id);
        if st.currentClassId == c.id then
          if |newClasses| > 0 then Ok(st.(classes := newClasses, currentClassId := newClasses[0].id))
          else Ok(st.(classes := newClasses))
        else Ok(st.(classes := newClasses))
  }

  /** The safety-net effect: an empty class list is replaced by the default class, which becomes current. */
  function EnsureDefaultClass(st: AppState): (r: AppState)
    ensures |r.classes| > 0
    ensures |st.classes| > 0 ==> r == st
    ensures |st.classes| == 0 ==> r.classes == [DefaultClass] && r.currentClassId == DefaultClassId
    ensures r.students == st.students && r.sortConfig == st.sortConfig
  {
    if |st.classes| == 0 then st.(classes := [DefaultClass], currentClassId := DefaultClassId) else st
  }

  /** A class deletion followed by the safety-net effect; a refusal leaves the state as it was. */
  function DeleteClassSettled(st: AppState, cid: Id): (r: AppState)
    ensures |st.classes| > 0 ==> |r.classes| > 0
    ensures r.students == st.students
  {
    match DeleteClass(st, cid)
    case Ok(s) => EnsureDefaultClass(s)
    case Err(_) => st
  }

  /** Deleting an empty class that was current, when it was the only one, brings back exactly the default class. */
  lemma DeleteOnlyClassRestoresDefault(st: AppState, c: ClassGroup)
    requires st.classes == [c] && st.currentClassId == c.id
    requires forall i :: 0 <= i < |st.students| ==> st.students[i].classId != c.id
    ensures DeleteClassSettled(st, c.id).classes == [DefaultClass]
    ensures DeleteClassSettled(st, c.id).currentClassId == DefaultClassId
  {
    var r := RemoveClass(st.classes, c.id);
    forall x: ClassGroup ensures multiset(r)[x] == 0 {
      assert multiset(st.classes) == multiset{c};
    }
    assert multiset(r) == multiset{};
  }

  /** A refused deletion changes nothing and reports how many students block it. */
  lemma DeleteNonEmptyClassRefused(st: AppState, cid: Id, k: int)
    requires 0 <= k < |st.students| && st.students[k].classId == cid
    ensures DeleteClass(st, cid) == Err(ClassNotEmpty(|ClassMembers(st.students, cid)|))
    ensures DeleteClassSettled(st, cid) == st
  {
  }

  /** The current class refers to an existing class. */
  predicate CurrentIsValid(st: AppState) {
    HasClassId(st.classes, st.currentClassId)
  }

  /**
   * Deleting the current class hands over to the first class in the list
   * that is not the deleted one, since the filter keeps the list's order.
   */
  lemma DeleteClassHandsToFirstRemaining(st: AppState, cid: Id, k: int)
    requires forall i :: 0 <= i < |st.students| ==> st.students[i].classId != cid
    requires st.currentClassId == cid && 0 <= k < |st.classes| && st.classes[k].id != cid
    requires forall i :: 0 <= i < k ==> st.classes[i].id == cid
    ensures DeleteClass(st, cid).Ok? && DeleteClass(st, cid).value.currentClassId == st.classes[k].id
  {
    Seqs.FilterFirstKept(st.classes, OtherThan(cid), k);
  }

  /** Settled deletion keeps the current class valid. */
  lemma DeleteClassKeepsCurrentValid(st: AppState, cid: Id)
    requires CurrentIsValid(st)
    ensures CurrentIsValid(DeleteClassSettled(st, cid))
  {
    var d := DeleteClass(st, cid);
    if d.Ok? {
      var s := d.value;
      if st.currentClassId != cid {
        var i :| 0 <= i < |st.classes| && st.classes[i].id == st.currentClassId;
        assert HasClassId(s.classes, st.classes[i].id);
      } else if |s.classes| > 0 {
        assert s.classes[0].id == s.currentClassId;
        assert DeleteClassSettled(st, cid) == s;
      } else {
        var r := DeleteClassSettled(st, cid);
        assert r.classes[0].id == r.currentClassId;
      }
    }
  }

  /** Adding and renaming classes keep the current class valid. */
  lemma AddRenameKeepCurrentValid(st: AppState, newName: string, newId: Id, editing: Option<ClassGroup>, name: string)
    requires CurrentIsValid(st)
    ensures CurrentIsValid(AddClass(st, newName, newId))
    ensures CurrentIsValid(RenameClass(st, editing, name))
  {
    var a := AddClass(st, newName, newId);
    if !AllWhitespace(newName) {
      assert a.classes[|st.classes|].id == newId;
    }
    var i :| 0 <= i < |st.classes| && st.classes[i].id == st.currentClassId;
    assert RenameClass(st, editing, name).classes[i].id == st.currentClassId;
  }

  /** Deletes the given classes one after another, each settled by the safety net. */
  function DeleteClasses(st: AppState, cids: seq<Id>): (r: AppState)
    ensures r.students == st.students
    decreases |cids|
  {
    if |cids| == 0 then st else DeleteClasses(DeleteClassSettled(st, cids[0]), cids[1..])
  }

  /** However many deletions are attempted, the class list is never left empty. */
  lemma {:induction false} DeleteClassesNeverEmpty(st: AppState, cids: seq<Id>)
    requires |st.classes| > 0
    ensures |DeleteClasses(st, cids).classes| > 0
    decreases |cids|
  {
    if |cids| > 0 {
      DeleteClassesNeverEmpty(DeleteClassSettled(st, cids[0]), cids[1..]);
    }
  }

  // ---------------------------------------------------------------------
  // Sorting and searching

  /** `handleSort`: the key becomes current; ascending only when re-selecting the current key while it is descending. */
  function NextSortConfig(prev: SortConfig, key: SortKey): (r: SortConfig)
    ensures r.key == key
    ensures r.dir == Asc <==> prev.key == key && prev.dir == Desc
  {
    SortConfig(key, if prev.key == key && prev.dir == Desc then Asc else Desc)
  }

  /** Clicking the current key twice restores the configuration; a new key starts descending. */
  lemma NextSortConfigToggles(c: SortConfig, key: SortKey)
    ensures c.key == key ==> NextSortConfig(NextSortConfig(c, key), key) == c
    ensures c.key != key ==> NextSortConfig(c, key) == SortConfig(key, Desc)
  {
  }

  /** `a.order ?? 9999`. */
  function OrderKey(s: Student): (k: int)
    ensures s.order.Some? ==> k == s.order.value
    ensures s.order.None? ==> k == MissingOrderKey
  {
    s.order.GetOr(MissingOrderKey)
  }

  /**
   * The comparator of `sortedStudents` as "may stand before": by points, by
   * order (missing = 9999), or by name through the collation `nameLe`
   * (`localeCompare(a, b) <= 0`), each ascending or descending.
   */
  function Precedes(cfg: SortConfig, nameLe: (string, string) -> bool): (le: (Student, Student) -> bool)
    ensures forall a, b :: le(a, b) <==> StandsBefore(cfg, nameLe, a, b)
  {
    (a: Student, b: Student) => StandsBefore(cfg, nameLe, a, b)
  }

  predicate StandsBefore(cfg: SortConfig, nameLe: (string, string) -> bool, a: Student, b: Student) {
    match (cfg.key, cfg.dir)
    case (ByPoints, Desc) => a.totalPoints >= b.totalPoints
    case (ByPoints, Asc) => a.totalPoints <= b.totalPoints
    case (ByOrder, Asc) => OrderKey(a) <= OrderKey(b)
    case (ByOrder, Desc) => OrderKey(a) >= OrderKey(b)
    case (ByName, Asc) => nameLe(a.name, b.name)
    case (ByName, Desc) => nameLe(b.name, a.name)
  }

  /** Each descending comparator is the ascending one with its two sides swapped (`b - a` for `a - b`). */
  lemma DescendingSwapsAscending(key: SortKey, nameLe: (string, string) -> bool, a: Student, b: Student)
    ensures StandsBefore(SortConfig(key, Desc), nameLe, a, b) <==> StandsBefore(SortConfig(key, Asc), nameLe, b, a)
  {
  }

  /** Every comparator is a total preorder, given one for names when sorting by name. */
  lemma PrecedesIsTotalPreorder(cfg: SortConfig, nameLe: (string, string) -> bool)
    requires cfg.key == ByName ==> Seqs.TotalPreorder(nameLe)
    ensures Seqs.TotalPreorder(Precedes(cfg, nameLe))
  {
    var le := Precedes(cfg, nameLe);
    forall a, b ensures le(a, b) || le(b, a) {
    }
    forall a, b, c | le(a, b) && le(b, c) ensures le(a, c) {
    }
  }

  /** The search filter: the case-folded name includes the case-folded query. */
  function MatchesQuery(fold: string -> string, query: string): (m: Student -> bool)
    ensures forall s :: m(s) <==> Contains(fold(s.name), fold(query))
    ensures fold(query) == [] ==> forall s :: m(s)
  {
    assert forall s: Student :: Contains(fold(s.name), []) by {
      forall s: Student ensures Contains(fold(s.name), []) {
        ContainsTrivial(fold(s.name));
      }
    }
    (s: Student) => Contains(fold(s.name), fold(query))
  }

  /** `sortedStudents`: the current class's students matching the query, stably sorted by the configuration. */
  function SortedView(st: AppState, query: string, fold: string -> string, nameLe: (string, string) -> bool)
    : (r: seq<Student>)
    ensures forall x :: multiset(r)[x]
                     == if x.classId == st.currentClassId && Contains(fold(x.name), fold(query))
                        then multiset(st.students)[x] else 0
  {
    var matching := Seqs.Filter(ClassMembers(st.students, st.currentClassId), MatchesQuery(fold, query));
    Seqs.SortBy(matching, Precedes(st.sortConfig, nameLe))
  }

  /** The view is in the configured order. */
  lemma SortedViewOrdered(st: AppState, query: string, fold: string -> string, nameLe: (string, string) -> bool)
    requires st.sortConfig.key == ByName ==> Seqs.TotalPreorder(nameLe)
    ensures Seqs.SortedBy(SortedView(st, query, fold, nameLe), Precedes(st.sortConfig, nameLe))
  {
    PrecedesIsTotalPreorder(st.sortConfig, nameLe);
    var matching := Seqs.Filter(ClassMembers(st.students, st.currentClassId), MatchesQuery(fold, query));
    Seqs.SortBySorted(matching, Precedes(st.sortConfig, nameLe));
  }

  /** Students the comparator ties keep the order they have in the student list. */
  lemma SortedViewStable(st: AppState, query: string, fold: string -> string, nameLe: (string, string) -> bool, z: Student)
    requires st.sortConfig.key == ByName ==> Seqs.TotalPreorder(nameLe)
    ensures var matching := Seqs.Filter(ClassMembers(st.students, st.currentClassId), MatchesQuery(fold, query));
      Seqs.EquivalentTo(SortedView(st, query, fold, nameLe), z, Precedes(st.sortConfig, nameLe))
        == Seqs.EquivalentTo(matching, z, Precedes(st.sortConfig, nameLe))
  {
    PrecedesIsTotalPreorder(st.sortConfig, nameLe);
    var matching := Seqs.Filter(ClassMembers(st.students, st.currentClassId), MatchesQuery(fold, query));
    Seqs.SortByStable(matching, z, Precedes(st.sortConfig, nameLe));
  }

  /** A query that folds to the empty string hides nobody of the current class. */
  lemma EmptyQueryShowsWholeClass(st: AppState, query: string, fold: string -> string, nameLe: (string, string) -> bool)
    requires fold(query) == ""
    ensures multiset(SortedView(st, query, fold, nameLe)) == multiset(ClassMembers(st.students, st.currentClassId))
  {
    var r := SortedView(st, query, fold, nameLe);
    var m := ClassMembers(st.students, st.currentClassId);
    forall x: Student ensures multiset(r)[x] == multiset(m)[x] {
      ContainsTrivial(fold(x.name));
    }
  }
}

=== FILE: rewards.dfy ===
/**
 * The reward catalogue editor of components/RewardSettingsModal.tsx: an
 * editable copy of the catalogue, the reward being edited and the reward whose
 * emoji picker is open. Saving hands the edited list back to the app unless a
 * name is blank.
 */
module RewardSettings {
  import opened Types
  import opened Text
  import Seqs

  datatype Editor = Editor(rewards: seq<Reward>, editingId: Option<Id>, emojiPickerFor: Option<Id>)

  /**
   * The editor's state when the component first mounts: a copy of the app's
   * catalogue, no reward being edited and no emoji picker open. Closing the
   * dialog does not unmount it, so this is not the state of a later reopening.
   */
  function Mount(rewards: seq<Reward>): (e: Editor)
    ensures e.rewards == rewards && e.editingId.None? && e.emojiPickerFor.None?
  {
    Editor(rewards, None, None)
  }

  const NewRewardName: string := "Quà mới"
  const NewRewardIcon: string := "🎁"
  const NewRewardCost: int := 50
  const NewRewardDescription: string := "Mô tả quà tặng"

  /** The reward `handleAddReward` creates under a fresh id. */
  function NewReward(freshId: Id): Reward {
    Reward(freshId, NewRewardName, NewRewardIcon, NewRewardCost, NewRewardDescription)
  }

  /** `handleAddReward`: one new reward at the end, which becomes the one being edited. */
  function AddReward(e: Editor, freshId: Id): (r: Editor)
    ensures |r.rewards| == |e.rewards| + 1
    ensures r.rewards[..|e.rewards|] == e.rewards
    ensures r.rewards[|e.rewards|] == NewReward(freshId)
    ensures r.editingId == Some(freshId) && r.emojiPickerFor == e.emojiPickerFor
  {
    e.(rewards := e.rewards + [NewReward(freshId)], editingId := Some(freshId))
  }

  /** The editable fields, each with its new value (`keyof Reward` as the inputs use it). */
  datatype RewardField = Name(name: string) | Icon(icon: string) | Cost(cost: int) | Description(description: string)

  /** `{ ...r, [field]: value }`: the one field replaced, the id and the other fields kept. */
  function SetField(r: Reward, f: RewardField): (out: Reward)
    ensures out.id == r.id
    ensures out.name == (if f.Name? then f.name else r.name)
    ensures out.icon == (if f.Icon? then f.icon else r.icon)
    ensures out.cost == (if f.Cost? then f.cost else r.cost)
    ensures out.description == (if f.Description? then f.description else r.description)
  {
    match f
    case Name(n) => r.(name := n)
    case Icon(i) => r.(icon := i)
    case Cost(c) => r.(cost := c)
    case Description(d) => r.(description := d)
  }

  /** `handleUpdateReward`: the field is set on every reward with the id; nothing else changes. */
  function UpdateReward(e: Editor, id: Id, f: RewardField): (r: Editor)
    ensures |r.rewards| == |e.rewards|
    ensures forall i :: 0 <= i < |e.rewards| ==>
      r.rewards[i] == if e.rewards[i].id == id then SetField(e.rewards[i], f) else e.rewards[i]
    ensures r.editingId == e.editingId && r.emojiPickerFor == e.emojiPickerFor
  {
    e.(rewards := seq(|e.rewards|, i requires 0 <= i < |e.rewards| =>
      if e.rewards[i].id == id then SetField(e.rewards[i], f) else e.rewards[i]))
  }

  /** Setting a field twice is setting it once; ids, and so positions, are never changed. */
  lemma UpdateRewardIdempotent(e: Editor, id: Id, f: RewardField)
    ensures UpdateReward(UpdateReward(e, id, f), id, f) == UpdateReward(e, id, f)
    ensures forall i :: 0 <= i < |e.rewards| ==> UpdateReward(e, id, f).rewards[i].id == e.rewards[i].id
  {
    var once := UpdateReward(e, id, f);
    var twice := UpdateReward(once, id, f);
    forall i | 0 <= i < |e.rewards| ensures twice.rewards[i] == once.rewards[i] {
      if e.rewards[i].id == id {
        var a, b := once.rewards[i], twice.rewards[i];
        assert a.id == id;
        assert b == SetField(a, f);
      }
    }
  }

  /** Updates of different rewards do not interfere. */
  lemma UpdateRewardsCommute(e: Editor, id1: Id, f1: RewardField, id2: Id, f2: RewardField)
    requires id1 != id2
    ensures UpdateReward(UpdateReward(e, id1, f1), id2, f2) == UpdateReward(UpdateReward(e, id2, f2), id1, f1)
  {
    var a := UpdateReward(UpdateReward(e, id1, f1), id2, f2);
    var b := UpdateReward(UpdateReward(e, id2, f2), id1, f1);
    forall i | 0 <= i < |e.rewards| ensures a.rewards[i] == b.rewards[i] {
    }
  }

  function NotId(id: Id): Reward -> bool {
    (r: Reward) => r.id != id
  }

  /** `handleDeleteReward` after the confirmation: drops every reward with the id and stops editing it. */
  function DeleteReward(e: Editor, id: Id): (r: Editor)
    ensures r.rewards == Seqs.Filter(e.rewards, NotId(id))
    ensures r.editingId == if e.editingId == Some(id) then None else e.editingId
    ensures r.emojiPickerFor == e.emojiPickerFor
  {
    Editor(Seqs.Filter(e.rewards, NotId(id)), if e.editingId == Some(id) then None else e.editingId, e.emojiPickerFor)
  }

  /** Deletion removes exactly the rewards with the id, keeping every other one with its multiplicity. */
  lemma DeleteRewardRemovesExactly(e: Editor, id: Id)
    ensures forall x :: multiset(DeleteReward(e, id).rewards)[x] == if x.id == id then 0 else multiset(e.rewards)[x]
    ensures forall i :: 0 <= i < |DeleteReward(e, id).rewards| ==> DeleteReward(e, id).rewards[i].id != id
  {
  }

  /** Adding a reward under an unused id and deleting it again restores the catalogue and ends the editing. */
  lemma AddThenDeleteRestores(e: Editor, freshId: Id)
    requires forall i :: 0 <= i < |e.rewards| ==> e.rewards[i].id != freshId
    ensures DeleteReward(AddReward(e, freshId), freshId).rewards == e.rewards
    ensures DeleteReward(AddReward(e, freshId), freshId).editingId == None
  {
    Seqs.FilterAppend(e.rewards, [NewReward(freshId)], NotId(freshId));
    assert Seqs.Filter([NewReward(freshId)], NotId(freshId)) == [];
  }

  /** Why a save is refused. */
  datatype SaveError = BlankName

  predicate HasBlankName(rewards: seq<Reward>) {
    exists i :: 0 <= i < |rewards| && Trim(rewards[i].name) == []
  }

  /** `handleSave`: the edited list, as it is, unless some name trims to nothing. */
  function Save(e: Editor): (r: Result<seq<Reward>, SaveError>)
    ensures r.Err? <==> exists i :: 0 <= i < |e.rewards| && AllWhitespace(e.rewards[i].name)
    ensures r.Ok? ==> r.value == e.rewards
  {
    if HasBlankName(e.rewards) then Err(BlankName) else Ok(e.rewards)
  }

  /** Saving an untouched editor hands the catalogue back unchanged unless one of its names is blank. */
  lemma MountThenSave(rewards: seq<Reward>)
    ensures Save(Mount(rewards)).Ok? <==> forall i :: 0 <= i < |rewards| ==> !AllWhitespace(rewards[i].name)
    ensures Save(Mount(rewards)).Ok? ==> Save(Mount(rewards)).value == rewards
  {
  }

  /** A freshly added reward never blocks a save that would otherwise succeed. */
  lemma AddRewardKeepsSavable(e: Editor, freshId: Id)
    requires Save(e).Ok?
    ensures Save(AddReward(e, freshId)).Ok?
  {
    var r := AddReward(e, freshId).rewards;
    assert !IsWhitespace(NewRewardName[0]);
    forall i | 0 <= i < |r| ensures !AllWhitespace(r[i].name) {
      if i < |e.rewards| {
        assert r[i] == e.rewards[i];
      }
    }
  }

  /** `parseInt(text) || 0`: a number that parses is kept, negatives included; anything else is 0. */
  function ParseCost(text: string): (c: int)
    ensures ParseInt(text).None? ==> c == 0
    ensures ParseInt(text).Some? ==> c == ParseInt(text).value
  {
    match ParseInt(text)
    case Some(v) => if v != 0 then v else 0
    case None => 0
  }

  /** Every integer typed in decimal, negative or not, is read back as itself. */
  lemma ParseCostRoundTrip(n: int)
    ensures ParseCost(IntToString(n)) == n
  {
    ParseIntRoundTrip(n);
  }

  /** An empty field is 0 and "-5" is -5: negative costs are not rejected. */
  lemma ParseCostExamples()
    ensures ParseCost("") == 0
    ensures ParseCost("-5") == -5
  {
    ParseIntRoundTrip(-5);
    assert IntToString(-5) == "-5";
  }

  /** `handleSelectEmoji`: the reward's icon becomes the emoji and the picker closes. */
  function SelectEmoji(e: Editor, id: Id, emoji: string): (r: Editor)
    ensures r.rewards == UpdateReward(e, id, Icon(emoji)).rewards
    ensures r.editingId == e.editingId && r.emojiPickerFor == None
  {
    UpdateReward(e, id, Icon(emoji)).(emojiPickerFor := None)
  }

  /** The free-text emoji box: a non-empty entry is selected, an empty one does nothing. */
  function TypeEmoji(e: Editor, id: Id, text: string): (r: Editor)
    ensures text == [] ==> r == e
    ensures text != [] ==> r == SelectEmoji(e, id, text)
  {
    if text == [] then e else SelectEmoji(e, id, text)
  }

  /** After choosing an emoji, every reward with the id shows it and no other reward changes. */
  lemma SelectEmojiSetsIcon(e: Editor, id: Id, emoji: string)
    ensures var r := SelectEmoji(e, id, emoji);
      forall i :: 0 <= i < |e.rewards| ==>
        (e.rewards[i].id == id ==> r.rewards[i] == e.rewards[i].(icon := emoji))
        && (e.rewards[i].id != id ==> r.rewards[i] == e.rewards[i])
  {
  }

  /** The icon button: opens this reward's picker, or closes it when it is already open. */
  function ToggleEmojiPicker(e: Editor, id: Id): (r: Editor)
    ensures r.emojiPickerFor == (if e.emojiPickerFor == Some(id) then None else Some(id))
    ensures r.rewards == e.rewards && r.editingId == e.editingId
  {
    e.(emojiPickerFor := if e.emojiPickerFor == Some(id) then None else Some(id))
  }

  /** Pressing the same icon button twice leaves the picker as it was, if it was closed or open on that reward. */
  lemma ToggleTwice(e: Editor, id: Id)
    requires e.emojiPickerFor.None? || e.emojiPickerFor == Some(id)
    ensures ToggleEmojiPicker(ToggleEmojiPicker(e, id), id) == e
  {
  }
}

=== FILE: seqs.dfy ===
/**
 * Sequence operations the app uses through JavaScript's array methods:
 * `filter`, `reduce` with `+`, `reverse`, and the stable `sort` on a copy.
 */
module Seqs {

  /** The elements of `s` that `keep` accepts, in their original order (`Array.prototype.filter`). */
  function Filter<T(!new)>(s: seq<T>, keep: T -> bool): (r: seq<T>)
    ensures |r| <= |s|
    ensures forall x :: multiset(r)[x] == if keep(x) then multiset(s)[x] else 0
    ensures forall i :: 0 <= i < |r| ==> keep(r[i])
    ensures (forall i :: 0 <= i < |s| ==> keep(s[i])) ==> r == s
  {
    if |s| == 0 then []
    else
      assert s == [s[0]] + s[1..];
      if keep(s[0]) then [s[0]] + Filter(s[1..], keep)
      else Filter(s[1..], keep)
  }

  /** Filtering distributes over concatenation. */
  lemma {:induction false} FilterAppend<T(!new)>(a: seq<T>, b: seq<T>, keep: T -> bool)
    ensures Filter(a + b, keep) == Filter(a, keep) + Filter(b, keep)
  {
    if |a| == 0 {
      assert a + b == b;
    } else {
      assert (a + b)[1..] == a[1..] + b;
      FilterAppend(a[1..], b, keep);
    }
  }

  /**
   * A single element is kept or dropped. With `FilterAppend` this pins down
   * `Filter` on every input: the kept elements stay in their original order.
   */
  lemma FilterSingleton<T(!new)>(x: T, keep: T -> bool)
    ensures Filter([x], keep) == if keep(x) then [x] else []
  {
    assert [x][1..] == [];
  }

  /** The first element kept is the first element of `s` that `keep` accepts. */
  lemma {:induction false} FilterFirstKept<T(!new)>(s: seq<T>, keep: T -> bool, k: int)
    requires 0 <= k < |s| && keep(s[k])
    requires forall i :: 0 <= i < k ==> !keep(s[i])
    ensures |Filter(s, keep)| > 0 && Filter(s, keep)[0] == s[k]
  {
    if k > 0 {
      FilterFirstKept(s[1..], keep, k - 1);
    }
  }

  /** Number of elements `p` accepts. */
  function Count<T>(s: seq<T>, p: T -> bool): (n: nat)
    ensures n <= |s|
  {
    if |s| == 0 then 0 else (if p(s[0]) then 1 else 0) + Count(s[1..], p)
  }

  /** Counting is counting what a filter keeps. */
  lemma {:induction false} CountIsFilterLength<T(!new)>(s: seq<T>, p: T -> bool)
    ensures Count(s, p) == |Filter(s, p)|
  {
    if |s| > 0 {
      CountIsFilterLength(s[1..], p);
    }
  }

  /** A count of zero means no element is accepted. */
  lemma {:induction false} CountZero<T>(s: seq<T>, p: T -> bool)
    ensures Count(s, p) == 0 <==> forall i :: 0 <= i < |s| ==> !p(s[i])
  {
    if |s| > 0 {
      CountZero(s[1..], p);
      assert forall i :: 1 <= i < |s| ==> s[i] == s[1..][i - 1];
    }
  }

  /** Two predicates that agree on every element count the same. */
  lemma {:induction false} CountCongruent<T>(s: seq<T>, p: T -> bool, q: T -> bool)
    requires forall i :: 0 <= i < |s| ==> p(s[i]) == q(s[i])
    ensures Count(s, p) == Count(s, q)
  {
    if |s| > 0 {
      CountCongruent(s[1..], p, q);
    }
  }

  /** If a block `s[lo..hi]` is all accepted, the count is at least its length. */
  lemma {:induction false} CountAtLeastBlock<T>(s: seq<T>, p: T -> bool, lo: nat, hi: nat)
    requires lo <= hi <= |s|
    requires forall i :: lo <= i < hi ==> p(s[i])
    ensures Count(s, p) >= hi - lo
  {
    if lo > 0 {
      CountAtLeastBlock(s[1..], p, lo - 1, hi - 1);
    } else if hi > 0 {
      CountAtLeastBlock(s[1..], p, 0, hi - 1);
    }
  }

  /** `x => p(x) ? 1 : 0`. */
  function Indicator<T>(p: T -> bool): T -> int {
    (x: T) => if p(x) then 1 else 0
  }

  /** `reduce((acc, x) => acc + f(x), 0)`. */
  function Sum<T>(s: seq<T>, f: T -> int): int {
    if |s| == 0 then 0 else f(s[0]) + Sum(s[1..], f)
  }

  lemma {:induction false} SumAppend<T>(a: seq<T>, b: seq<T>, f: T -> int)
    ensures Sum(a + b, f) == Sum(a, f) + Sum(b, f)
  {
    if |a| == 0 {
      assert a + b == b;
    } else {
      assert (a + b)[1..] == a[1..] + b;
      SumAppend(a[1..], b, f);
    }
  }

  /** Replacing one element changes the sum by exactly the difference at that element. */
  lemma {:induction false} SumReplace<T>(s: seq<T>, t: seq<T>, i: int, f: T -> int)
    requires |s| == |t| && 0 <= i < |s|
    requires forall j :: 0 <= j < |s| && j != i ==> s[j] == t[j]
    ensures Sum(t, f) == Sum(s, f) - f(s[i]) + f(t[i])
  {
    if i == 0 {
      assert s[1..] == t[1..];
    } else {
      SumReplace(s[1..], t[1..], i - 1, f);
    }
  }

  /** A sum of non-negative terms is non-negative. */
  lemma {:induction false} SumNonNegative<T>(s: seq<T>, f: T -> int)
    requires forall i :: 0 <= i < |s| ==> f(s[i]) >= 0
    ensures Sum(s, f) >= 0
  {
    if |s| > 0 {
      SumNonNegative(s[1..], f);
    }
  }

  /** Taking one element out of a sequence takes its term out of the sum. */
  lemma SumRemoveAt<T>(t: seq<T>, k: int, f: T -> int)
    requires 0 <= k < |t|
    ensures Sum(t, f) == f(t[k]) + Sum(t[..k] + t[k + 1..], f)
  {
    assert t == t[..k] + ([t[k]] + t[k + 1..]);
    SumAppend(t[..k], [t[k]] + t[k + 1..], f);
    SumAppend([t[k]], t[k + 1..], f);
    SumAppend(t[..k], t[k + 1..], f);
  }

  lemma MultisetRemoveAt<T>(t: seq<T>, k: int)
    requires 0 <= k < |t|
    ensures multiset(t[..k] + t[k + 1..]) == multiset(t) - multiset{t[k]}
  {
    assert t == t[..k] + [t[k]] + t[k + 1..];
  }

  /** Sums are invariant under permutation. */
  lemma {:induction false} SumPermutation<T>(s: seq<T>, t: seq<T>, f: T -> int)
    requires multiset(s) == multiset(t)
    ensures Sum(s, f) == Sum(t, f)
    decreases |s|
  {
    if |s| > 0 {
      var x := s[0];
      assert x in multiset(t);
      var k :| 0 <= k < |t| && t[k] == x;
      var rest := t[..k] + t[k + 1..];
      MultisetRemoveAt(t, k);
      MultisetRemoveAt(s, 0);
      assert s[..0] + s[1..] == s[1..];
      SumPermutation(s[1..], rest, f);
      SumRemoveAt(t, k, f);
    }
  }

  /** Counting is summing the indicator. */
  lemma {:induction false} CountIsIndicatorSum<T>(s: seq<T>, p: T -> bool)
    ensures Count(s, p) == Sum(s, Indicator(p))
  {
    if |s| > 0 {
      CountIsIndicatorSum(s[1..], p);
    }
  }

  /** Counts are invariant under permutation. */
  lemma CountPermutation<T>(s: seq<T>, t: seq<T>, p: T -> bool)
    requires multiset(s) == multiset(t)
    ensures Count(s, p) == Count(t, p)
  {
    CountIsIndicatorSum(s, p);
    CountIsIndicatorSum(t, p);
    SumPermutation(s, t, Indicator(p));
  }

  /** `[...s].reverse()`. */
  function Reverse<T>(s: seq<T>): (r: seq<T>)
    ensures |r| == |s|
    ensures forall i :: 0 <= i < |s| ==> r[i] == s[|s| - 1 - i]
  {
    if |s| == 0 then [] else Reverse(s[1..]) + [s[0]]
  }

  /** Reversing twice restores the sequence. */
  lemma ReverseInvolution<T>(s: seq<T>)
    ensures Reverse(Reverse(s)) == s
  {
  }

  /** Reversal keeps the same elements with the same multiplicities. */
  lemma {:induction false} ReversePermutation<T>(s: seq<T>)
    ensures multiset(Reverse(s)) == multiset(s)
  {
    if |s| > 0 {
      ReversePermutation(s[1..]);
      assert s == [s[0]] + s[1..];
    }
  }

  // ---------------------------------------------------------------------
  // Stable sorting. `le(a, b)` means a comparator returned a value <= 0 for
  // (a, b), i.e. `a` may stand before `b`.

  ghost predicate TotalPreorder<T(!new)>(le: (T, T) -> bool) {
    && (forall a, b :: le(a, b) || le(b, a))
    && (forall a, b, c :: le(a, b) && le(b, c) ==> le(a, c))
  }

  predicate SortedBy<T>(s: seq<T>, le: (T, T) -> bool) {
    forall i, j :: 0 <= i < j < |s| ==> le(s[i], s[j])
  }

  /** Places `x` in front of the first element it may precede. */
  function Insert<T>(x: T, s: seq<T>, le: (T, T) -> bool): (r: seq<T>)
    ensures |r| == |s| + 1
    ensures multiset(r) == multiset(s) + multiset{x}
  {
    if |s| == 0 then [x]
    else if le(x, s[0]) then [x] + s
    else
      assert s == [s[0]] + s[1..];
      [s[0]] + Insert(x, s[1..], le)
  }

  lemma {:induction false} InsertSorted<T(!new)>(x: T, s: seq<T>, le: (T, T) -> bool)
    requires TotalPreorder(le)
    requires SortedBy(s, le)
    ensures SortedBy(Insert(x, s, le), le)
  {
    if |s| > 0 && !le(x, s[0]) {
      InsertSorted(x, s[1..], le);
      var r := Insert(x, s, le);
      var t := Insert(x, s[1..], le);
      assert r == [s[0]] + t;
      assert le(s[0], x);
      forall k | 0 <= k < |t| ensures le(s[0], t[k]) {
        assert t[k] in multiset(t);
        assert t[k] in multiset(s[1..]) + multiset{x};
        if t[k] != x {
          assert t[k] in multiset(s[1..]);
          var m :| 0 <= m < |s[1..]| && s[1..][m] == t[k];
          assert s[m + 1] == t[k];
        }
      }
    }
  }

  /** Insertion sort; earlier elements stay in front of equivalent later ones, as in the ES2019 stable `sort`. */
  function SortBy<T>(s: seq<T>, le: (T, T) -> bool): (r: seq<T>)
    ensures |r| == |s|
    ensures multiset(r) == multiset(s)
  {
    if |s| == 0 then []
    else
      assert s == [s[0]] + s[1..];
      Insert(s[0], SortBy(s[1..], le), le)
  }

  /** Under a total preorder the sort's output is ordered. */
  lemma {:induction false} SortBySorted<T(!new)>(s: seq<T>, le: (T, T) -> bool)
    requires TotalPreorder(le)
    ensures SortedBy(SortBy(s, le), le)
  {
    if |s| > 0 {
      SortBySorted(s[1..], le);
      InsertSorted(s[0], SortBy(s[1..], le), le);
    }
  }

  /** The elements of `s` that `le` cannot tell apart from `z`, in order. */
  function EquivalentTo<T>(s: seq<T>, z: T, le: (T, T) -> bool): (r: seq<T>)
    ensures |r| <= |s|
  {
    if |s| == 0 then []
    else if le(z, s[0]) && le(s[0], z) then [s[0]] + EquivalentTo(s[1..], z, le)
    else EquivalentTo(s[1..], z, le)
  }

  lemma {:induction false} InsertStable<T(!new)>(x: T, s: seq<T>, z: T, le: (T, T) -> bool)
    requires TotalPreorder(le)
    ensures EquivalentTo(Insert(x, s, le), z, le)
         == (if le(z, x) && le(x, z) then [x] else []) + EquivalentTo(s, z, le)
  {
    if |s| == 0 {
    } else if le(x, s[0]) {
      assert Insert(x, s, le)[1..] == s;
    } else {
      InsertStable(x, s[1..], z, le);
      assert Insert(x, s, le)[1..] == Insert(x, s[1..], le);
      // s[0] stands before x, so it is strictly below x and cannot be equivalent to z.
      var a := s[0];
      assert le(x, z) && le(z, a) ==> le(x, a);
    }
  }

  /**
   * Stability: for every equivalence class of `le`, the sorted output lists its
   * members in exactly the order the input did.
   */
  lemma {:induction false} SortByStable<T(!new)>(s: seq<T>, z: T, le: (T, T) -> bool)
    requires TotalPreorder(le)
    ensures EquivalentTo(SortBy(s, le), z, le) == EquivalentTo(s, z, le)
  {
    if |s| > 0 {
      SortByStable(s[1..], z, le);
      InsertStable(s[0], SortBy(s[1..], le), z, le);
    }
  }

  /** The first `n` elements, or all of them when there are fewer (`slice(0, n)`). */
  function Take<T>(s: seq<T>, n: nat): (r: seq<T>)
    ensures |r| == if |s| < n then |s| else n
    ensures r <= s
  {
    if |s| <= n then s else s[..n]
  }
}

=== FILE: statistics.dfy ===
/**
 * The class statistics of components/ClassStatisticsModal.tsx: totals,
 * rounded average, extremes, the level and point-range distributions,
 * redemption totals, the top five, the level percentages and the median.
 */
module Statistics {
  import opened Types
  import opened LevelRules
  import Seqs
  import Leaderboard
  import Ledger

  function Points(s: Student): int { s.totalPoints }
  function RedeemedCount(s: Student): int { |s.rewardsRedeemed| }
  function Spent(r: RedeemedReward): int { r.pointsSpent }

  /** Points a student has spent on rewards. */
  function SpentBy(s: Student): int { Seqs.Sum(s.rewardsRedeemed, Spent) }

  /**
   * `Math.round(a / n)` for a positive divisor, on exact rationals: the
   * integer nearest to a / n, halves going up.
   */
  function RoundDiv(a: int, n: int): (r: int)
    requires n > 0
    ensures 2 * (n * r) - n <= 2 * a < 2 * (n * r) + n
  {
    var q := (2 * a + n) / (2 * n);
    assert 2 * a + n == (2 * n) * q + (2 * a + n) % (2 * n);
    assert (2 * n) * q == 2 * (n * q);
    q
  }

  /** The points column, `students.map(s => s.totalPoints)`. */
  function PointsOf(students: seq<Student>): (v: seq<int>)
    ensures |v| == |students|
    ensures forall i :: 0 <= i < |v| ==> v[i] == students[i].totalPoints
  {
    seq(|students|, i requires 0 <= i < |students| => students[i].totalPoints)
  }

  /** `Math.max(...v)` of a non-empty list. */
  function MaxOf(v: seq<int>): (m: int)
    requires |v| > 0
    ensures forall i :: 0 <= i < |v| ==> v[i] <= m
    ensures exists i :: 0 <= i < |v| && v[i] == m
  {
    if |v| == 1 then v[0]
    else
      var m := MaxOf(v[1..]);
      var k :| 0 <= k < |v[1..]| && v[1..][k] == m;
      assert v[k + 1] == m;
      if v[0] >= m then v[0] else m
  }

  /** `Math.min(...v)` of a non-empty list. */
  function MinOf(v: seq<int>): (m: int)
    requires |v| > 0
    ensures forall i :: 0 <= i < |v| ==> m <= v[i]
    ensures exists i :: 0 <= i < |v| && v[i] == m
  {
    if |v| == 1 then v[0]
    else
      var m := MinOf(v[1..]);
      var k :| 0 <= k < |v[1..]| && v[1..][k] == m;
      assert v[k + 1] == m;
      if v[0] <= m then v[0] else m
  }

  // ---------------------------------------------------------------------
  // Distributions

  function HasLevel(l: Level): Student -> bool {
    (s: Student) => s.level == l
  }

  /** `levelCounts[l]`: how many students have stored level `l`. */
  function LevelCount(students: seq<Student>, l: Level): nat {
    Seqs.Count(students, HasLevel(l))
  }

  /** One bucket of the point histogram; `max == None` stands for `Infinity`. */
  datatype PointRange = PointRange(title: string, min: int, max: Option<int>)

  const PointRanges: seq<PointRange> := [
    PointRange("0-19", 0, Some(19)),
    PointRange("20-49", 20, Some(49)),
    PointRange("50-99", 50, Some(99)),
    PointRange("100+", 100, None)
  ]

  predicate InRange(r: PointRange, p: int) {
    r.min <= p && (r.max.None? || p <= r.max.value)
  }

  /** `pointRanges.find(r => p >= r.min && p <= r.max)`, by position. */
  function RangeIndex(p: int): (k: Option<nat>)
    ensures k.Some? ==> k.value < |PointRanges| && InRange(PointRanges[k.value], p)
    ensures k.None? ==> forall j :: 0 <= j < |PointRanges| ==> !InRange(PointRanges[j], p)
  {
    FirstRangeFrom(p, 0)
  }

  function FirstRangeFrom(p: int, j: nat): (k: Option<nat>)
    requires j <= |PointRanges|
    ensures k.Some? ==> j <= k.value < |PointRanges| && InRange(PointRanges[k.value], p)
    ensures k.None? ==> forall i :: j <= i < |PointRanges| ==> !InRange(PointRanges[i], p)
    decreases |PointRanges| - j
  {
    if j == |PointRanges| then None
    else if InRange(PointRanges[j], p) then Some(j)
    else FirstRangeFrom(p, j + 1)
  }

  /**
   * The buckets do not overlap and cover exactly the non-negative balances; a
   * balance falls in the bucket whose position is the rank of the tier it
   * classifies to, so the histogram mirrors the level table.
   */
  lemma RangeIndexMatchesLevel(p: int)
    ensures RangeIndex(p).Some? <==> p >= 0
    ensures p >= 0 ==> RangeIndex(p) == Some(Rank(CalculateLevel(p)))
    ensures forall i, j :: 0 <= i < j < |PointRanges| ==> !(InRange(PointRanges[i], p) && InRange(PointRanges[j], p))
  {
  }

  function InRangeAt(k: nat): Student -> bool {
    (s: Student) => RangeIndex(s.totalPoints) == Some(k)
  }

  /** `pointRanges[k].count`. */
  function RangeCount(students: seq<Student>, k: nat): nat {
    Seqs.Count(students, InRangeAt(k))
  }

  function NonNegative(): Student -> bool {
    (s: Student) => s.totalPoints >= 0
  }

  /** `Math.round((count / n) * 100)` on exact rationals, 0 for an empty class. */
  function Percentage(count: nat, n: nat): (r: int)
    requires count <= n
    ensures 0 <= r <= 100
    ensures n == 0 ==> r == 0
    ensures n > 0 ==> 2 * (n * r) - n <= 200 * count < 2 * (n * r) + n
  {
    if n == 0 then 0
    else
      var r := RoundDiv(100 * count, n);
      assert r <= 100 by {
        if r > 100 {
          MulMonotone(n, 101, r);
          assert false;
        }
      }
      assert r >= 0 by {
        if r < 0 {
          MulMonotone(n, r, -1);
          assert false;
        }
      }
      r
  }

  // ---------------------------------------------------------------------
  // The statistics record

  datatype LevelShare = LevelShare(level: Level, count: nat, percentage: int)
  datatype RangeBucket = RangeBucket(range: PointRange, count: nat)

  datatype Stats = Stats(
    totalStudents: nat,
    totalPoints: int,
    avgPoints: int,
    maxPoints: int,
    minPoints: int,
    levelCounts: seq<nat>,
    levelPercentages: seq<LevelShare>,
    pointRanges: seq<RangeBucket>,
    totalRewardsRedeemed: int,
    totalPointsSpent: int,
    topStudents: seq<Student>)

  const TopCount: nat := 5

  /** `avgPoints`: the rounded mean, 0 for an empty class. */
  function AvgPoints(students: seq<Student>): (r: int)
    ensures |students| == 0 ==> r == 0
    ensures |students| > 0 ==>
      2 * (|students| * r) - |students| <= 2 * Seqs.Sum(students, Points) < 2 * (|students| * r) + |students|
  {
    if |students| > 0 then RoundDiv(Seqs.Sum(students, Points), |students|) else 0
  }

  /** `maxPoints`: the highest balance, 0 for an empty class. */
  function MaxPoints(students: seq<Student>): (r: int)
    ensures |students| == 0 ==> r == 0
    ensures forall i :: 0 <= i < |students| ==> students[i].totalPoints <= r
    ensures |students| > 0 ==> exists i :: 0 <= i < |students| && students[i].totalPoints == r
  {
    if |students| > 0 then MaxOf(PointsOf(students)) else 0
  }

  /** `minPoints`: the lowest balance, 0 for an empty class. */
  function MinPoints(students: seq<Student>): (r: int)
    ensures |students| == 0 ==> r == 0
    ensures forall i :: 0 <= i < |students| ==> r <= students[i].totalPoints
    ensures |students| > 0 ==> exists i :: 0 <= i < |students| && students[i].totalPoints == r
  {
    if |students| > 0 then MinOf(PointsOf(students)) else 0
  }

  /** `levelPercentages`, in the order of the level table. */
  function LevelShares(students: seq<Student>): (r: seq<LevelShare>)
    ensures |r| == 4
    ensures forall k :: 0 <= k < 4 ==>
      && r[k].level == LevelAt(k)
      && r[k].count == LevelCount(students, LevelAt(k))
      && 0 <= r[k].percentage <= 100
      && (|students| == 0 ==> r[k].percentage == 0)
    ensures forall k :: 0 <= k < 4 && |students| > 0 ==>
      2 * (|students| * r[k].percentage) - |students| <= 200 * r[k].count < 2 * (|students| * r[k].percentage) + |students|
  {
    seq(4, k requires 0 <= k < 4 =>
      LevelShare(LevelAt(k), LevelCount(students, LevelAt(k)), Percentage(LevelCount(students, LevelAt(k)), |students|)))
  }

  /** `levelCounts`: how many students are at each level, in ladder order. */
  function LevelCounts(students: seq<Student>): (r: seq<nat>)
    ensures |r| == 4
    ensures forall k :: 0 <= k < 4 ==> r[k] == LevelCount(students, LevelAt(k))
  {
    seq(4, k requires 0 <= k < 4 => LevelCount(students, LevelAt(k)))
  }

  /** `pointRanges` with their counts. */
  function RangeBuckets(students: seq<Student>): (r: seq<RangeBucket>)
    ensures |r| == 4
    ensures forall k :: 0 <= k < 4 ==> r[k] == RangeBucket(PointRanges[k], RangeCount(students, k))
  {
    seq(4, k requires 0 <= k < 4 => RangeBucket(PointRanges[k], RangeCount(students, k)))
  }

  /** The `stats` memo of the statistics view. */
  function ComputeStats(students: seq<Student>): (st: Stats)
    ensures st.totalStudents == |students|
    ensures st.totalPoints == Seqs.Sum(students, Points)
    ensures |students| == 0 ==> st.avgPoints == 0 && st.maxPoints == 0 && st.minPoints == 0 && st.topStudents == []
    ensures |students| > 0 ==>
      2 * (|students| * st.avgPoints) - |students| <= 2 * st.totalPoints < 2 * (|students| * st.avgPoints) + |students|
    ensures |students| > 0 ==>
      && (forall i :: 0 <= i < |students| ==> st.minPoints <= students[i].totalPoints <= st.maxPoints)
      && (exists i :: 0 <= i < |students| && students[i].totalPoints == st.maxPoints)
      && (exists i :: 0 <= i < |students| && students[i].totalPoints == st.minPoints)
    ensures |st.levelCounts| == 4 && |st.levelPercentages| == 4 && |st.pointRanges| == 4
    ensures forall k :: 0 <= k < 4 ==> st.levelCounts[k] == LevelCount(students, LevelAt(k))
    ensures forall k :: 0 <= k < 4 ==>
      st.levelPercentages[k].level == LevelAt(k) && st.levelPercentages[k].count == st.levelCounts[k]
    ensures forall k :: 0 <= k < 4 ==> 0 <= st.levelPercentages[k].percentage <= 100
    ensures forall k :: 0 <= k < 4 && |students| > 0 ==>
      2 * (|students| * st.levelPercentages[k].percentage) - |students|
        <= 200 * st.levelPercentages[k].count
        < 2 * (|students| * st.levelPercentages[k].percentage) + |students|
    ensures forall k :: 0 <= k < 4 ==> st.pointRanges[k] == RangeBucket(PointRanges[k], RangeCount(students, k))
    ensures st.totalRewardsRedeemed == Seqs.Sum(students, RedeemedCount)
    ensures st.totalPointsSpent == Seqs.Sum(students, SpentBy)
    ensures st.topStudents == Leaderboard.TopByPoints(students, TopCount)
  {
    var counts := LevelCounts(students);
    var shares := LevelShares(students);
    var buckets := RangeBuckets(students);
    Stats(
      |students|,
      Seqs.Sum(students, Points),
      AvgPoints(students),
      MaxPoints(students),
      MinPoints(students),
      counts,
      shares,
      buckets,
      Seqs.Sum(students, RedeemedCount),
      Seqs.Sum(students, SpentBy),
      Leaderboard.TopByPoints(students, TopCount))
  }

  // ---------------------------------------------------------------------
  // Properties

  /** Every student is counted under exactly one level. */
  lemma {:induction false} LevelCountsSumToTotal(students: seq<Student>)
    ensures LevelCount(students, Hat) + LevelCount(students, NayMam)
          + LevelCount(students, CayCon) + LevelCount(students, CayTo) == |students|
  {
    if |students| > 0 {
      LevelCountsSumToTotal(students[1..]);
    }
  }

  /** The point histogram counts every student with a non-negative balance exactly once, and nobody else. */
  lemma {:induction false} RangeCountsSumToNonNegative(students: seq<Student>)
    ensures RangeCount(students, 0) + RangeCount(students, 1) + RangeCount(students, 2) + RangeCount(students, 3)
         == Seqs.Count(students, NonNegative())
  {
    if |students| > 0 {
      RangeCountsSumToNonNegative(students[1..]);
      RangeIndexMatchesLevel(students[0].totalPoints);
    }
  }

  /**
   * While every stored level matches its balance and no balance is negative,
   * the point histogram and the level distribution agree bucket by bucket.
   * A redemption that leaves a stale level breaks this.
   */
  lemma RangesMatchLevels(students: seq<Student>, k: nat)
    requires k < 4
    requires forall i :: 0 <= i < |students| ==> Ledger.LevelCached(students[i]) && students[i].totalPoints >= 0
    ensures RangeCount(students, k) == LevelCount(students, LevelAt(k))
  {
    forall i | 0 <= i < |students| ensures InRangeAt(k)(students[i]) == HasLevel(LevelAt(k))(students[i]) {
      RangeIndexMatchesLevel(students[i].totalPoints);
      RankIsBijection();
    }
    Seqs.CountCongruent(students, InRangeAt(k), HasLevel(LevelAt(k)));
  }

  lemma {:induction false} SumBetween(students: seq<Student>, lo: int, hi: int)
    requires forall i :: 0 <= i < |students| ==> lo <= students[i].totalPoints <= hi
    ensures |students| * lo <= Seqs.Sum(students, Points) <= |students| * hi
  {
    if |students| > 0 {
      SumBetween(students[1..], lo, hi);
    }
  }

  /** The rounded average lies between the lowest and the highest balance. */
  lemma AvgBetweenMinMax(students: seq<Student>)
    requires |students| > 0
    ensures var st := ComputeStats(students);
      st.minPoints <= st.avgPoints <= st.maxPoints
  {
    var st := ComputeStats(students);
    SumBetween(students, st.minPoints, st.maxPoints);
    RoundDivBetween(st.totalPoints, |students|, st.minPoints, st.maxPoints);
  }

  /** A rounded quotient stays within any integer bounds the exact quotient respects. */
  lemma RoundDivBetween(a: int, n: int, lo: int, hi: int)
    requires n > 0 && n * lo <= a <= n * hi
    ensures lo <= RoundDiv(a, n) <= hi
  {
    var r := RoundDiv(a, n);
    assert n * (r + 1) == n * r + n;
    assert n * (hi + 1) == n * hi + n;
    MulCancelStrict(n, lo, r + 1);
    MulCancelStrict(n, r, hi + 1);
  }

  /** Dividing both sides of a strict inequality by a positive factor. */
  lemma MulCancelStrict(n: int, x: int, y: int)
    requires n > 0 && n * x < n * y
    ensures x < y
  {
  }

  lemma MulMonotone(n: nat, x: int, y: int)
    requires x <= y
    ensures n * x <= n * y
  {
  }

  /** The top five are the first five of the leaderboard, whatever its time filter. */
  lemma TopFiveLeadLeaderboard(students: seq<Student>, f: Leaderboard.TimeFilter)
    ensures ComputeStats(students).topStudents <= Leaderboard.Ranking(students, f)
  {
  }

  /**
   * An accepted redemption of `reward` by the student at index `k` moves the
   * statistics by exactly one redemption: the class total drops by the cost,
   * and the redemption count and points spent grow by one and by the cost.
   */
  lemma RedeemShiftsStats(students: seq<Student>, k: int, reward: Reward, historyId: Id, redemptionId: Id, date: string)
    requires Ledger.UniqueIds(students) && 0 <= k < |students|
    requires students[k].totalPoints >= reward.cost
    ensures var r := Ledger.RedeemReward(students, students[k].id, reward, historyId, redemptionId, date);
      && r.Ok?
      && var before, after := ComputeStats(students), ComputeStats(r.value);
      && after.totalStudents == before.totalStudents
      && after.totalPoints == before.totalPoints - reward.cost
      && after.totalRewardsRedeemed == before.totalRewardsRedeemed + 1
      && after.totalPointsSpent == before.totalPointsSpent + reward.cost
  {
    Ledger.RedeemRewardAt(students, k, reward, historyId, redemptionId, date);
    var r := Ledger.RedeemReward(students, students[k].id, reward, historyId, redemptionId, date);
    var t := r.value;
    Seqs.SumReplace(students, t, k, Points);
    Seqs.SumReplace(students, t, k, RedeemedCount);
    Seqs.SumReplace(students, t, k, SpentBy);
    var old_ := students[k].rewardsRedeemed;
    assert t[k].rewardsRedeemed == old_ + [t[k].rewardsRedeemed[|old_|]];
    Seqs.SumAppend(old_, [t[k].rewardsRedeemed[|old_|]], Spent);
  }

  // ---------------------------------------------------------------------
  // getMedian

  const IntAsc: (int, int) -> bool := (a: int, b: int) => a <= b

  function AtMost(r: int): int -> bool { (v: int) => v <= r }
  function AtLeast(r: int): int -> bool { (v: int) => v >= r }

  /**
   * `getMedian`: 0 for no values; otherwise the middle of the ascending
   * order, or the rounded mean of the two middle values for an even count.
   */
  function Median(values: seq<int>): (r: int)
    ensures |values| == 0 ==> r == 0
    ensures |values| > 0 ==> MinOf(values) <= r <= MaxOf(values)
  {
    if |values| == 0 then 0
    else
      var sorted := Seqs.SortBy(values, IntAsc);
      var r := MiddleOf(sorted);
      assert sorted[|sorted| / 2] in multiset(values);
      assert sorted[(|sorted| - 1) / 2] in multiset(values);
      r
  }

  /** The middle value of a sorted list, or the rounded mean of the two middle values for an even length. */
  function MiddleOf(sorted: seq<int>): (r: int)
    requires |sorted| > 0
    ensures var lo, hi := sorted[(|sorted| - 1) / 2], sorted[|sorted| / 2];
      (lo <= hi ==> lo <= r <= hi) && (hi <= lo ==> hi <= r <= lo)
    ensures |sorted| % 2 == 1 ==> r == sorted[|sorted| / 2]
    ensures |sorted| % 2 == 0 ==> 2 * r - 1 <= sorted[|sorted| / 2 - 1] + sorted[|sorted| / 2] < 2 * r + 1
  {
    var mid := |sorted| / 2;
    if |sorted| % 2 != 0 then sorted[mid]
    else RoundDiv(sorted[mid - 1] + sorted[mid], 2)
  }

  /**
   * The median splits the values: at least half of them (rounded up) are at
   * most the median, and at least half are at least the median.
   */
  lemma MedianSplits(values: seq<int>)
    requires |values| > 0
    ensures var m, half := Median(values), (|values| + 1) / 2;
      Seqs.Count(values, AtMost(m)) >= half && Seqs.Count(values, AtLeast(m)) >= half
  {
    var sorted := Seqs.SortBy(values, IntAsc);
    var m := MiddleOf(sorted);
    assert Median(values) == m;
    Seqs.SortBySorted(values, IntAsc);
    Seqs.CountPermutation(values, sorted, AtMost(m));
    Seqs.CountPermutation(values, sorted, AtLeast(m));
    MiddleCounts(sorted);
  }

  /** The middle of an ascending list has half the list, rounded up, at most it and half at least it. */
  lemma MiddleCounts(sorted: seq<int>)
    requires |sorted| > 0 && Seqs.SortedBy(sorted, IntAsc)
    ensures Seqs.Count(sorted, AtMost(MiddleOf(sorted))) >= (|sorted| + 1) / 2
    ensures Seqs.Count(sorted, AtLeast(MiddleOf(sorted))) >= (|sorted| + 1) / 2
  {
    var n := |sorted|;
    var lo, hi := (n - 1) / 2, n / 2;
    assert lo <= hi < n;
    assert lo + 1 >= (n + 1) / 2 && n - hi >= (n + 1) / 2;
    assert IntAsc(sorted[lo], sorted[hi]);
    SortedCounts(sorted, MiddleOf(sorted), lo, hi);
  }

  /** In an ascending list, a value between positions `a` and `b` has `a + 1` values at most it and `|s| - b` at least it. */
  lemma SortedCounts(sorted: seq<int>, m: int, a: nat, b: nat)
    requires Seqs.SortedBy(sorted, IntAsc)
    requires a < |sorted| && b < |sorted| && sorted[a] <= m <= sorted[b]
    ensures Seqs.Count(sorted, AtMost(m)) >= a + 1
    ensures Seqs.Count(sorted, AtLeast(m)) >= |sorted| - b
  {
    assert forall i :: 0 <= i <= a ==> IntAsc(sorted[i], sorted[a]);
    Seqs.CountAtLeastBlock(sorted, AtMost(m), 0, a + 1);
    assert forall i :: b <= i < |sorted| ==> IntAsc(sorted[b], sorted[i]);
    Seqs.CountAtLeastBlock(sorted, AtLeast(m), b, |sorted|);
  }

  /**
   * The median does not depend on how the values were sorted: it is the
   * middle of any ascending arrangement of them.
   */
  lemma MedianOfAnyAscending(values: seq<int>, t: seq<int>)
    requires |values| > 0 && Seqs.SortedBy(t, IntAsc) && multiset(t) == multiset(values)
    ensures |t| == |values| && Median(values) == MiddleOf(t)
  {
    Seqs.SortBySorted(values, IntAsc);
    AscendingUnique(Seqs.SortBy(values, IntAsc), t);
  }

  /** Two ascending lists holding the same values are the same list. */
  lemma {:induction false} AscendingUnique(a: seq<int>, b: seq<int>)
    requires Seqs.SortedBy(a, IntAsc) && Seqs.SortedBy(b, IntAsc) && multiset(a) == multiset(b)
    ensures a == b
  {
    assert |a| == |multiset(a)| == |multiset(b)| == |b|;
    if |a| > 0 {
      HeadIsLeast(a, b[0]);
      HeadIsLeast(b, a[0]);
      assert a[0] == b[0];
      var a', b' := a[1..], b[1..];
      assert a == [a[0]] + a' && b == [b[0]] + b';
      assert multiset(a') == multiset(b') by {
        assert multiset(a') == multiset(a) - multiset{a[0]};
        assert multiset(b') == multiset(b) - multiset{b[0]};
      }
      AscendingTail(a);
      AscendingTail(b);
      AscendingUnique(a', b');
    }
  }

  /** The head of an ascending list is at most every value in it. */
  lemma HeadIsLeast(a: seq<int>, x: int)
    requires Seqs.SortedBy(a, IntAsc) && x in multiset(a)
    ensures |a| > 0 && a[0] <= x
  {
    var k :| 0 <= k < |a| && a[k] == x;
    if k > 0 {
      assert IntAsc(a[0], a[k]);
    }
  }

  /** Dropping the head of an ascending list leaves it ascending. */
  lemma AscendingTail(a: seq<int>)
    requires |a| > 0 && Seqs.SortedBy(a, IntAsc)
    ensures Seqs.SortedBy(a[1..], IntAsc)
  {
    forall x, y | 0 <= x < y < |a| - 1 ensures IntAsc(a[1..][x], a[1..][y]) {
      assert IntAsc(a[x + 1], a[y + 1]);
    }
  }

  /** An empty list has median 0; [1, 2] has median 2, since 1.5 rounds up. */
  lemma MedianExamples()
    ensures Median([]) == 0
    ensures Median([1, 2]) == 2
  {
    assert Seqs.SortedBy([1, 2], IntAsc);
    MedianOfAnyAscending([1, 2], [1, 2]);
  }
}

=== FILE: student_detail.dfy ===
/**
 * The student detail view of components/StudentDetailModal.tsx: the history
 * tab (newest first), the redeem tab (always the default catalogue, a button
 * enabled only when affordable) and the stats tab (gained and lost totals, a
 * preview of redeemed reward names).
 */
module StudentDetail {
  import opened Types
  import Seqs
  import Ledger
  import Utils

  /** `[...student.pointHistory].reverse()`: the history newest first. */
  function HistoryNewestFirst(s: Student): (r: seq<PointHistory>)
    ensures |r| == |s.pointHistory|
    ensures forall i :: 0 <= i < |r| ==> r[i] == s.pointHistory[|s.pointHistory| - 1 - i]
    ensures multiset(r) == multiset(s.pointHistory)
  {
    Seqs.ReversePermutation(s.pointHistory);
    Seqs.Reverse(s.pointHistory)
  }

  /** On a consistent record the top line of the history shows the current balance. */
  lemma NewestEntryShowsBalance(s: Student)
    requires Ledger.Consistent(s) && |s.pointHistory| > 0
    ensures HistoryNewestFirst(s)[0].pointsAfter == s.totalPoints
  {
  }

  /** After a point update, the top line of the history is the entry that update appended. */
  lemma UpdateShowsFirst(s: Student, amount: int, reason: string, entryId: Id, date: string)
    ensures var t := Ledger.ApplyDelta(s, amount, reason, entryId, date).student;
      && HistoryNewestFirst(t)[0].id == entryId
      && HistoryNewestFirst(t)[0].change == amount
      && HistoryNewestFirst(t)[0].pointsAfter == t.totalPoints
      && HistoryNewestFirst(t)[1..] == HistoryNewestFirst(s)
  {
  }

  const UnnamedChange: string := "Thay đổi điểm"

  /** How one history line reads: its reason (a fallback when empty) and a "+" before a positive change. */
  datatype HistoryLine = HistoryLine(reason: string, sign: string, change: int)

  function LineOf(h: PointHistory): (l: HistoryLine)
    ensures l.reason == if h.reason == [] then UnnamedChange else h.reason
    ensures l.sign == "+" <==> h.change > 0
    ensures l.sign == [] <==> h.change <= 0
    ensures l.change == h.change
  {
    HistoryLine(if h.reason == [] then UnnamedChange else h.reason, if h.change > 0 then "+" else "", h.change)
  }

  /** The redeem tab lists `DEFAULT_REWARDS`; the catalogue configured in the app is not consulted. */
  function OfferedRewards(s: Student, configured: seq<Reward>): (r: seq<Reward>)
    ensures r == DefaultRewards
  {
    DefaultRewards
  }

  /** `canAfford`: the redeem button is enabled. */
  predicate CanAfford(s: Student, reward: Reward) {
    s.totalPoints >= reward.cost
  }

  /**
   * The button gate agrees with the ledger: for a listed student (ids unique)
   * the button is enabled exactly when pressing it would be accepted, so an
   * enabled button never meets the insufficient-points error.
   */
  lemma CanAffordIffRedeemAccepted(students: seq<Student>, k: int, reward: Reward, historyId: Id, redemptionId: Id, date: string)
    requires Ledger.UniqueIds(students) && 0 <= k < |students|
    ensures CanAfford(students[k], reward)
        <==> Ledger.RedeemReward(students, students[k].id, reward, historyId, redemptionId, date).Ok?
  {
    Ledger.RedeemRewardAt(students, k, reward, historyId, redemptionId, date);
  }

  /** The offered rewards a student can afford are exactly those whose cost is within the balance; with 0 points, none. */
  lemma AffordableOffers(s: Student, configured: seq<Reward>)
    ensures forall i :: 0 <= i < |OfferedRewards(s, configured)| ==>
      (CanAfford(s, OfferedRewards(s, configured)[i]) <==> DefaultRewards[i].cost <= s.totalPoints)
    ensures s.totalPoints < 30 ==> forall i :: 0 <= i < |OfferedRewards(s, configured)| ==> !CanAfford(s, OfferedRewards(s, configured)[i])
    ensures s.totalPoints >= 200 ==> forall i :: 0 <= i < |OfferedRewards(s, configured)| ==> CanAfford(s, OfferedRewards(s, configured)[i])
  {
    DefaultRewardsWellFormed();
  }

  /** The stats tab's totals: gained (shown with "+"), lost, and the number of redemptions. */
  datatype StatsTab = StatsTab(gained: int, lost: int, redeemedCount: nat, preview: seq<string>, ellipsis: bool)

  const PreviewSize: nat := 5

  function RewardName(r: RedeemedReward): string { r.rewardName }

  /**
   * The stats tab of a student: the gained and lost totals, the redemption
   * count, the first five redeemed reward names, and an ellipsis when there are more.
   */
  function StatsTabOf(s: Student): (t: StatsTab)
    ensures t.gained == Utils.GainedPoints(s.pointHistory) && t.gained >= 0
    ensures t.lost == Utils.LostPoints(s.pointHistory) && t.lost <= 0
    ensures t.redeemedCount == |s.rewardsRedeemed|
    ensures |t.preview| == if |s.rewardsRedeemed| < PreviewSize then |s.rewardsRedeemed| else PreviewSize
    ensures forall i :: 0 <= i < |t.preview| ==> t.preview[i] == s.rewardsRedeemed[i].rewardName
    ensures t.ellipsis <==> |s.rewardsRedeemed| > PreviewSize
  {
    var shown := Seqs.Take(s.rewardsRedeemed, PreviewSize);
    StatsTab(
      Utils.GainedPoints(s.pointHistory),
      Utils.LostPoints(s.pointHistory),
      |s.rewardsRedeemed|,
      seq(|shown|, i requires 0 <= i < |shown| => shown[i].rewardName),
      |s.rewardsRedeemed| > PreviewSize)
  }

  /**
   * The preview hides something exactly when the ellipsis shows; the gained
   * and lost totals add up to the net change, which a consistent record's
   * balance covers.
   */
  lemma StatsTabComplete(s: Student)
    ensures var t := StatsTabOf(s);
      && (t.ellipsis <==> |t.preview| < t.redeemedCount)
      && t.gained + t.lost == Seqs.Sum(s.pointHistory, Ledger.Change)
      && (Ledger.Consistent(s) ==> t.gained + t.lost <= s.totalPoints)
  {
    Utils.GainedPlusLostIsNet(s.pointHistory);
  }

  /** The detail view and the spreadsheet export report the same gained and lost amounts. */
  lemma StatsTabAgreesWithExport(students: seq<Student>, i: int)
    requires 0 <= i < |students|
    ensures StatsTabOf(students[i]).gained == Utils.ExcelRows(students)[i].gained
    ensures StatsTabOf(students[i]).lost == -Utils.ExcelRows(students)[i].lost
  {
  }

  /** A redemption adds its reward's name to the preview while fewer than five are shown. */
  lemma RedeemExtendsPreview(s: Student, reward: Reward, historyId: Id, redemptionId: Id, date: string)
    requires |s.rewardsRedeemed| < PreviewSize
    ensures var t := StatsTabOf(Ledger.Debit(s, reward, historyId, redemptionId, date));
      t.preview == StatsTabOf(s).preview + [reward.name] && !t.ellipsis
  {
  }
}

=== FILE: text.dfy ===
/**
 * The string operations the app relies on: `trim`, `includes`,
 * `split(' ').pop()` and decimal `parseInt`, on strings as sequences of
 * characters.
 */
module Text {
  import opened Types

  /** ECMAScript WhiteSpace and LineTerminator code points, the set `trim` strips. */
  predicate IsWhitespace(c: char) {
    || c == '\t' || c == '\n' || c == '\U{B}' || c == '\U{C}' || c == '\r' || c == ' '
    || c == '\U{A0}' || c == '\U{1680}' || ('\U{2000}' <= c <= '\U{200A}')
    || c == '\U{2028}' || c == '\U{2029}' || c == '\U{202F}' || c == '\U{205F}'
    || c == '\U{3000}' || c == '\U{FEFF}'
  }

  predicate AllWhitespace(s: string) {
    forall i :: 0 <= i < |s| ==> IsWhitespace(s[i])
  }

  /** Number of leading whitespace characters. */
  function LeadingWhitespace(s: string): (n: nat)
    ensures n <= |s|
    ensures AllWhitespace(s[..n])
    ensures n < |s| ==> !IsWhitespace(s[n])
  {
    if |s| == 0 || !IsWhitespace(s[0]) then 0
    else
      var n := 1 + LeadingWhitespace(s[1..]);
      assert forall i :: 1 <= i < n ==> s[..n][i] == s[1..][..n - 1][i - 1];
      n
  }

  /** Number of trailing whitespace characters. */
  function TrailingWhitespace(s: string): (n: nat)
    ensures n <= |s|
    ensures AllWhitespace(s[|s| - n..])
    ensures n < |s| ==> !IsWhitespace(s[|s| - n - 1])
  {
    if |s| == 0 || !IsWhitespace(s[|s| - 1]) then 0
    else
      var n := 1 + TrailingWhitespace(s[..|s| - 1]);
      assert forall i :: |s| - n <= i < |s| - 1 ==> s[i] == s[..|s| - 1][i];
      n
  }

  /**
   * `String.prototype.trim`: the slice left after stripping whitespace at both
   * ends. The result starts and ends with a non-blank, and only whitespace was cut.
   */
  function Trim(s: string): (r: string)
    ensures exists i, j :: 0 <= i <= j <= |s| && r == s[i..j] && AllWhitespace(s[..i]) && AllWhitespace(s[j..])
    ensures |r| > 0 ==> !IsWhitespace(r[0]) && !IsWhitespace(r[|r| - 1])
    ensures r == [] <==> AllWhitespace(s)
  {
    var i := LeadingWhitespace(s);
    if i == |s| then
      assert s[..i] == s;
      assert s[i..i] == [] && s[i..] == [];
      []
    else
      var t := TrailingWhitespace(s[i..]);
      var j := |s| - t;
      assert s[i..][|s[i..]| - t..] == s[j..];
      assert s[i..j] == s[i..][..|s[i..]| - t];
      assert !IsWhitespace(s[i]);
      s[i..j]
  }

  /** Trimming is idempotent. */
  lemma TrimIdempotent(s: string)
    ensures Trim(Trim(s)) == Trim(s)
  {
    var r := Trim(s);
    if |r| > 0 {
      assert LeadingWhitespace(r) == 0;
      assert TrailingWhitespace(r) == 0;
      assert r[0..|r|] == r;
    }
  }

  /** `s.includes(sub)`. */
  predicate Contains(s: string, sub: string) {
    exists i: nat | i <= |s| :: OccursAt(s, sub, i)
  }

  /** `sub` occurs in `s` starting at position `i`. */
  predicate OccursAt(s: string, sub: string, i: nat) {
    i + |sub| <= |s| && s[i..i + |sub|] == sub
  }

  /** Every string includes the empty string and itself. */
  lemma ContainsTrivial(s: string)
    ensures Contains(s, "") && Contains(s, s)
  {
    assert OccursAt(s, "", 0);
    assert OccursAt(s, s, 0);
  }

  /** `s.split(' ').pop()`: the text after the last plain space, or all of `s` when it has none. */
  function LastWord(s: string): (r: string)
    ensures ' ' !in r
    ensures |r| <= |s| && r == s[|s| - |r|..]
    ensures |r| < |s| ==> s[|s| - |r| - 1] == ' '
  {
    if |s| == 0 then ""
    else if s[|s| - 1] == ' ' then ""
    else
      var w := LastWord(s[..|s| - 1]);
      assert s[..|s| - 1][|s| - 1 - |w|..] == s[|s| - 1 - |w|..|s| - 1];
      w + [s[|s| - 1]]
  }

  // ---------------------------------------------------------------------
  // Decimal integers

  predicate IsDigit(c: char) { '0' <= c <= '9' }

  function DigitValue(c: char): (d: nat)
    requires IsDigit(c)
    ensures d < 10
  {
    (c as int - '0' as int) as nat
  }

  function DigitChar(d: nat): (c: char)
    requires d < 10
    ensures IsDigit(c) && DigitValue(c) == d
  {
    ('0' as int + d) as char
  }

  /** Number of leading decimal digits. */
  function DigitRun(s: string): (n: nat)
    ensures n <= |s|
    ensures forall i :: 0 <= i < n ==> IsDigit(s[i])
    ensures n < |s| ==> !IsDigit(s[n])
  {
    if |s| == 0 || !IsDigit(s[0]) then 0
    else
      var n := 1 + DigitRun(s[1..]);
      assert forall i :: 1 <= i < n ==> s[i] == s[1..][i - 1];
      n
  }

  /** The value of a string of digits, most significant first. */
  function DigitsValue(ds: string): nat
    requires forall i :: 0 <= i < |ds| ==> IsDigit(ds[i])
  {
    if |ds| == 0 then 0 else 10 * DigitsValue(ds[..|ds| - 1]) + DigitValue(ds[|ds| - 1])
  }

  /** The decimal spelling of a natural number, without leading zeros. */
  function NatToString(n: nat): (s: string)
    ensures |s| > 0
    ensures forall i :: 0 <= i < |s| ==> IsDigit(s[i])
    ensures |s| > 1 ==> s[0] != '0'
  {
    if n < 10 then [DigitChar(n)] else NatToString(n / 10) + [DigitChar(n % 10)]
  }

  /** The decimal spelling of an integer, with a leading minus sign when negative. */
  function IntToString(n: int): string {
    if n < 0 then "-" + NatToString(-n) else NatToString(n)
  }

  /**
   * `parseInt(s)` with radix 10: skip leading whitespace, read an optional
   * sign, then the longest run of digits; no digit at all is `NaN` (`None`).
   * Anything after the digits is ignored.
   */
  function ParseInt(s: string): (r: Option<int>)
    ensures r.None? <==> var t := s[LeadingWhitespace(s)..];
      DigitRun(if |t| > 0 && (t[0] == '-' || t[0] == '+') then t[1..] else t) == 0
  {
    var t := s[LeadingWhitespace(s)..];
    var negative := |t| > 0 && t[0] == '-';
    var body := if |t| > 0 && (t[0] == '-' || t[0] == '+') then t[1..] else t;
    var n := DigitRun(body);
    if n == 0 then None
    else
      var v: int := DigitsValue(body[..n]);
      Some(if negative then -v else v)
  }

  lemma {:induction false} DigitsOfNatToString(n: nat)
    ensures DigitsValue(NatToString(n)) == n
  {
    var s := NatToString(n);
    if n >= 10 {
      DigitsOfNatToString(n / 10);
      assert s[..|s| - 1] == NatToString(n / 10);
    }
  }

  /** Printing an integer in decimal and parsing it back yields the integer. */
  lemma ParseIntRoundTrip(n: int)
    ensures ParseInt(IntToString(n)) == Some(n)
  {
    var s := IntToString(n);
    var m: nat := if n < 0 then -n else n;
    var digits := NatToString(m);
    assert LeadingWhitespace(s) == 0 by {
      assert s[0] == '-' || IsDigit(s[0]);
    }
    assert s[0..] == s;
    var body := if n < 0 then s[1..] else s;
    assert body == digits;
    assert DigitRun(body) == |body|;
    assert body[..|body|] == digits;
    DigitsOfNatToString(m);
  }

  /** A blank or letter-only string is `NaN`. */
  lemma ParseIntRejects()
    ensures ParseInt("") == None
    ensures ParseInt("abc") == None
  {
    assert LeadingWhitespace("abc") == 0;
    assert "abc"[0..] == "abc";
  }

  /** Leading blanks are skipped and trailing garbage is ignored. */
  lemma ParseIntSkipsAround()
    ensures ParseInt(" 42x") == Some(42)
  {
    assert LeadingWhitespace(" 42x") == 1;
    assert " 42x"[1..] == "42x";
    assert DigitRun("42x") == 2;
    assert "42x"[..2] == "42";
    assert "42"[..1] == "4";
    assert "4"[..0] == "";
  }
}

=== FILE: types.dfy ===
/**
 * The records of the classroom points app: students, their point history and
 * redemptions, classes, rewards, the level table and the default reward
 * catalogue. Identifiers and timestamps are opaque strings supplied by the
 * caller (the app draws them from a UUID generator and the clock).
 */
module Types {

  /** An optional value, standing for TypeScript's `x?: T` and `T | null`. */
  datatype Option<+T> = None | Some(value: T) {
    function GetOr(default: T): T {
      match this
      case Some(v) => v
      case None => default
    }
  }

  /** A success value or a typed failure. */
  datatype Result<+T, +E> = Ok(value: T) | Err(error: E)

  type Id = string

  /** The four growth tiers: seed, sprout, sapling, tree. */
  datatype Level = Hat | NayMam | CayCon | CayTo

  datatype PointHistory = PointHistory(
    id: Id,
    date: string,
    change: int,
    reason: string,
    pointsAfter: int)

  datatype RedeemedReward = RedeemedReward(
    id: Id,
    date: string,
    rewardName: string,
    pointsSpent: int)

  datatype Student = Student(
    id: Id,
    classId: Id,
    order: Option<int>,
    name: string,
    dob: Option<string>,
    className: Option<string>,
    avatar: Option<string>,
    totalPoints: int,
    level: Level,
    pointHistory: seq<PointHistory>,
    rewardsRedeemed: seq<RedeemedReward>)

  datatype ClassGroup = ClassGroup(id: Id, name: string)

  datatype Reward = Reward(
    id: Id,
    name: string,
    icon: string,
    cost: int,
    description: string)

  /** One row of the level table; `max == None` is the unbounded top tier. */
  datatype LevelInfo = LevelInfo(min: int, max: Option<int>, name: string, icon: string)

  /** The level table, one entry per tier. */
  function Levels(l: Level): LevelInfo {
    match l
    case Hat => LevelInfo(0, Some(19), "Hạt", "🌰")
    case NayMam => LevelInfo(20, Some(49), "Nảy mầm", "🌱")
    case CayCon => LevelInfo(50, Some(99), "Cây con", "🌿")
    case CayTo => LevelInfo(100, None, "Cây to", "🌳")
  }

  /** Position of a tier in the growth order. */
  function Rank(l: Level): nat {
    match l
    case Hat => 0
    case NayMam => 1
    case CayCon => 2
    case CayTo => 3
  }

  /** The tier at a given position of the growth order. */
  function LevelAt(k: nat): (l: Level)
    requires k < 4
    ensures Rank(l) == k
  {
    if k == 0 then Hat else if k == 1 then NayMam else if k == 2 then CayCon else CayTo
  }

  /** Every tier sits at exactly one position, and every position below four holds one tier. */
  lemma RankIsBijection()
    ensures forall l: Level :: Rank(l) < 4 && LevelAt(Rank(l)) == l
    ensures forall l: Level, m: Level :: Rank(l) == Rank(m) ==> l == m
  {
    forall l: Level ensures LevelAt(Rank(l)) == l {
      match l
      case Hat =>
      case NayMam =>
      case CayCon =>
      case CayTo =>
    }
  }

  /** The tier minimums grow strictly with the tier's position. */
  lemma LevelMinStrictlyIncreasing(l: Level, m: Level)
    ensures Rank(l) < Rank(m) <==> Levels(l).min < Levels(m).min
  {
  }

  /** Each bounded tier ends one point before the next tier begins; only the top tier is unbounded. */
  lemma LevelsContiguous(k: nat)
    requires k < 4
    ensures k < 3 ==> Levels(LevelAt(k)).max == Some(Levels(LevelAt(k + 1)).min - 1)
    ensures k == 3 <==> Levels(LevelAt(k)).max.None?
    ensures k == 0 ==> Levels(LevelAt(k)).min == 0
  {
  }

  const DefaultRewards: seq<Reward> := [
    Reward("1", "Miễn 1 bài tập", "📝", 30, "Miễn làm một bài tập về nhà"),
    Reward("2", "Chọn chỗ ngồi", "🪑", 50, "Được chọn chỗ ngồi trong 1 tuần"),
    Reward("3", "+5 điểm kiểm tra", "✏️", 80, "Cộng điểm vào bài kiểm tra 15p"),
    Reward("4", "Ngồi ghế GV", "👨‍🏫", 100, "Ngồi ghế giáo viên 1 tiết học"),
    Reward("5", "Voucher sách", "📚", 150, "Voucher mua sách trị giá 50k"),
    Reward("6", "Giải đặc biệt", "🏆", 200, "Phần quà bí mật từ giáo viên")
  ]

  /** The default catalogue has six rewards with distinct ids and strictly increasing positive costs from 30 to 200. */
  lemma DefaultRewardsWellFormed()
    ensures |DefaultRewards| == 6
    ensures forall i, j :: 0 <= i < j < |DefaultRewards| ==>
      DefaultRewards[i].id != DefaultRewards[j].id && 0 < DefaultRewards[i].cost < DefaultRewards[j].cost
    ensures DefaultRewards[0].cost == 30 && DefaultRewards[5].cost == 200
  {
  }

  const DefaultClassId: Id := "default-class"
  const DefaultClassName: string := "Lớp học của tôi"
  const DefaultClass: ClassGroup := ClassGroup(DefaultClassId, DefaultClassName)
}

=== FILE: utils.dfy ===
/**
 * The helpers of utils.ts that carry logic: the avatar URL built from a
 * name's last word, the gained and lost point totals of a history, and the
 * rows of the student spreadsheet export (the workbook writing itself is not
 * modelled).
 */
module Utils {
  import opened Types
  import opened Text
  import Seqs
  import Ledger

  // ---------------------------------------------------------------------
  // getAvatarUrl

  const AvatarPrefix: string := "https://ui-avatars.com/api/?name="
  const AvatarSuffix: string := "&background=random&color=fff&size=128"

  /** A JavaScript truthy optional string: present and non-empty. */
  predicate Truthy(url: Option<string>) {
    url.Some? && url.value != []
  }

  /**
   * `name.split(' ').pop()?.substring(0, 1).toUpperCase() || 'A'`, with
   * `toUpperCase` given as `upper`: the upper-cased first character of the
   * last space-separated word, or "A" when that is empty.
   */
  function Initials(name: string, upper: string -> string): (r: string)
    ensures r != []
    ensures LastWord(name) == [] ==> r == "A"
    ensures LastWord(name) != [] ==> r == (if upper(LastWord(name)[..1]) == [] then "A" else upper(LastWord(name)[..1]))
  {
    var word := LastWord(name);
    var first := if word == [] then "" else upper(word[..1]);
    if first == [] then "A" else first
  }

  /** `getAvatarUrl`: a truthy url as it is, otherwise the generated initials avatar. */
  function AvatarUrl(name: string, url: Option<string>, upper: string -> string): (r: string)
    ensures Truthy(url) ==> r == url.value
    ensures !Truthy(url) ==> r == AvatarPrefix + Initials(name, upper) + AvatarSuffix
  {
    if Truthy(url) then url.value else AvatarPrefix + Initials(name, upper) + AvatarSuffix
  }

  /**
   * Without a usable url, the avatar depends only on the first letter of the
   * name's last word: "Tran Binh" shows upper("B"), and a name ending in a
   * space falls back to "A".
   */
  lemma AvatarExamples(upper: string -> string)
    requires upper("B") != []
    ensures AvatarUrl("Tran Binh", None, upper) == AvatarPrefix + upper("B") + AvatarSuffix
    ensures AvatarUrl("An ", Some(""), upper) == AvatarPrefix + "A" + AvatarSuffix
  {
    LastWordAfterSpace("Tran", "Binh");
    assert "Tran" + [' '] + "Binh" == "Tran Binh";
    assert "Binh"[..1] == "B";
    assert "An "[|"An "| - 1] == ' ';
  }

  /** The last word of `a + " " + w` is `w` when `w` holds no space. */
  lemma LastWordAfterSpace(a: string, w: string)
    requires ' ' !in w
    ensures LastWord(a + [' '] + w) == w
  {
    var s := a + [' '] + w;
    var r := LastWord(s);
    assert s[|a|] == ' ' && s[|a| + 1..] == w;
  }

  /** Two names with the same last word get the same generated avatar. */
  lemma AvatarFollowsLastWord(a: string, b: string, url: Option<string>, upper: string -> string)
    requires !Truthy(url)
    ensures LastWord(a) == LastWord(b) ==> AvatarUrl(a, url, upper) == AvatarUrl(b, url, upper)
    ensures AvatarUrl(a + " ", url, upper) == AvatarPrefix + "A" + AvatarSuffix
  {
    assert (a + " ")[|a + " "| - 1] == ' ';
  }

  // ---------------------------------------------------------------------
  // Gained and lost points

  function Gain(): PointHistory -> bool { (h: PointHistory) => h.change > 0 }
  function Loss(): PointHistory -> bool { (h: PointHistory) => h.change < 0 }

  /** `history.filter(h => h.change > 0).reduce((acc, h) => acc + h.change, 0)`. */
  function GainedPoints(history: seq<PointHistory>): (r: int)
    ensures r >= 0
  {
    var gains := Seqs.Filter(history, Gain());
    Seqs.SumNonNegative(gains, Ledger.Change);
    Seqs.Sum(gains, Ledger.Change)
  }

  /** `history.filter(h => h.change < 0).reduce((acc, h) => acc + h.change, 0)`. */
  function LostPoints(history: seq<PointHistory>): (r: int)
    ensures r <= 0
  {
    var losses := Seqs.Filter(history, Loss());
    NonPositiveSum(losses);
    Seqs.Sum(losses, Ledger.Change)
  }

  lemma {:induction false} NonPositiveSum(s: seq<PointHistory>)
    requires forall i :: 0 <= i < |s| ==> s[i].change <= 0
    ensures Seqs.Sum(s, Ledger.Change) <= 0
  {
    if |s| > 0 {
      NonPositiveSum(s[1..]);
    }
  }

  /** What was gained plus what was lost is the net of all recorded changes. */
  lemma {:induction false} GainedPlusLostIsNet(history: seq<PointHistory>)
    ensures GainedPoints(history) + LostPoints(history) == Seqs.Sum(history, Ledger.Change)
  {
    if |history| > 0 {
      var h, rest := history[0], history[1..];
      GainedPlusLostIsNet(rest);
      var g, l := Seqs.Filter(rest, Gain()), Seqs.Filter(rest, Loss());
      assert ([h] + g)[1..] == g && ([h] + l)[1..] == l;
      if h.change > 0 {
        assert Seqs.Filter(history, Gain()) == [h] + g;
        assert Seqs.Filter(history, Loss()) == l;
      } else if h.change < 0 {
        assert Seqs.Filter(history, Gain()) == g;
        assert Seqs.Filter(history, Loss()) == [h] + l;
      } else {
        assert Seqs.Filter(history, Gain()) == g;
        assert Seqs.Filter(history, Loss()) == l;
      }
    }
  }

  /**
   * Appending one entry moves exactly one of the totals: a positive change is
   * gained, a negative one lost, and a zero change neither.
   */
  lemma AppendEntryShiftsTotals(history: seq<PointHistory>, h: PointHistory)
    ensures GainedPoints(history + [h]) == GainedPoints(history) + (if h.change > 0 then h.change else 0)
    ensures LostPoints(history + [h]) == LostPoints(history) + (if h.change < 0 then h.change else 0)
  {
    Seqs.FilterAppend(history, [h], Gain());
    Seqs.FilterAppend(history, [h], Loss());
    Seqs.SumAppend(Seqs.Filter(history, Gain()), Seqs.Filter([h], Gain()), Ledger.Change);
    Seqs.SumAppend(Seqs.Filter(history, Loss()), Seqs.Filter([h], Loss()), Ledger.Change);
  }

  /** An awarded or deducted amount lands in the matching total of the student's history. */
  lemma ApplyDeltaShiftsTotals(s: Student, amount: int, reason: string, entryId: Id, date: string)
    ensures var t := Ledger.ApplyDelta(s, amount, reason, entryId, date).student.pointHistory;
      && GainedPoints(t) == GainedPoints(s.pointHistory) + (if amount > 0 then amount else 0)
      && LostPoints(t) == LostPoints(s.pointHistory) + (if amount < 0 then amount else 0)
  {
    var r := Ledger.ApplyDelta(s, amount, reason, entryId, date).student;
    var h := r.pointHistory[|s.pointHistory|];
    assert r.pointHistory == s.pointHistory + [h];
    AppendEntryShiftsTotals(s.pointHistory, h);
  }

  // ---------------------------------------------------------------------
  // toExcel rows

  /** A spreadsheet cell: a number, or text (the empty string for a missing value). */
  datatype Cell = Number(n: int) | Label(s: string)

  datatype StudentRow = StudentRow(
    stt: Cell,
    id: Id,
    name: string,
    dob: string,
    className: string,
    points: int,
    levelName: string,
    gained: int,
    lost: int,
    rewardsRedeemed: nat)

  /** `x || ''` for an optional number: present and non-zero, or the empty text. */
  function OrderCell(order: Option<int>): (c: Cell)
    ensures c.Number? <==> order.Some? && order.value != 0
    ensures c.Number? ==> c.n == order.value
    ensures c.Label? ==> c.s == []
  {
    if order.Some? && order.value != 0 then Number(order.value) else Label("")
  }

  /** `x || ''` for an optional string. */
  function TextOrEmpty(x: Option<string>): (r: string)
    ensures x.Some? ==> r == x.value
    ensures x.None? ==> r == []
  {
    x.GetOr("")
  }

  /** One row of `toExcel`. */
  function RowOf(s: Student): (r: StudentRow)
    ensures r.stt == OrderCell(s.order) && r.id == s.id && r.name == s.name
    ensures r.dob == TextOrEmpty(s.dob) && r.className == TextOrEmpty(s.className)
    ensures r.points == s.totalPoints && r.levelName == Levels(s.level).name
    ensures r.gained == GainedPoints(s.pointHistory) >= 0
    ensures r.lost == -LostPoints(s.pointHistory) >= 0
    ensures r.rewardsRedeemed == |s.rewardsRedeemed|
  {
    StudentRow(
      OrderCell(s.order), s.id, s.name, TextOrEmpty(s.dob), TextOrEmpty(s.className),
      s.totalPoints, Levels(s.level).name,
      GainedPoints(s.pointHistory), -LostPoints(s.pointHistory), |s.rewardsRedeemed|)
  }

  /** The rows of `toExcel`, one per student in order. */
  function ExcelRows(students: seq<Student>): (rows: seq<StudentRow>)
    ensures |rows| == |students|
    ensures forall i :: 0 <= i < |rows| ==> rows[i] == RowOf(students[i])
  {
    seq(|students|, i requires 0 <= i < |students| => RowOf(students[i]))
  }

  /**
   * Each exported row's gained and lost columns are non-negative and their
   * difference is the net of the recorded changes, which for a consistent
   * record never exceeds the current balance.
   */
  lemma ExcelRowTotals(students: seq<Student>, i: int)
    requires 0 <= i < |students|
    ensures var row := ExcelRows(students)[i];
      && row.gained >= 0 && row.lost >= 0
      && row.gained - row.lost == Seqs.Sum(students[i].pointHistory, Ledger.Change)
      && (Ledger.Consistent(students[i]) ==> row.gained - row.lost <= row.points)
  {
    GainedPlusLostIsNet(students[i].pointHistory);
  }
}
